=== FILE: README.md ===
# Scope digest model

A Dafny model of the dirty-checking engine of an AngularJS-style `Scope`
(`src/scope.js`), with proofs of what it promises.

A scope holds an ordered list of watchers. Each watcher has a watch
expression, a listener, an equality flag and a baseline `last`. `$watch`
appends a watcher whose baseline is the `uuid` sentinel.

- `$$areEqual` decides whether a watched value changed. With the flag set it
  compares structure. Otherwise it uses `===`, except that NaN equals NaN.
- `$$digestOnce` makes one sweep in registration order. For each changed
  watcher it:
  - records the watcher as the last dirty one;
  - stores the new baseline;
  - calls the listener, with the new value as old value on the first call.

  The sweep stops early at a clean watcher that is the last dirty one.
- `$digest` resets that marker and sweeps until a sweep is clean. It throws
  once eleven sweeps in a row have been dirty (`TTL = 10`, decremented after each test in
  `!(TTL--)`).

Files:

- `values.dfy`, module `Values`:
  - JavaScript values, with reference ids so that `===` (identity) and
    structural equality can be told apart;
  - the equality policy `AreEqual` and its laws.
- `scope.dfy`, module `Scopes`:
  - the scope, watchers, `$watch`;
  - one sweep as the function `SweepFrom` and as the loop `DigestOnce`;
  - the sweep's properties as inductive lemmas.
- `digest.dfy`, module `Digests`:
  - the `$digest` loop as the function `DigestLoop` and as the loops
    `SweepUntilClean` and `Digest`;
  - bounded sweeps, convergence, idempotence and short-circuit soundness.
- `scenarios.dfy`, module `DigestScenarios`: the behaviours of
  `tests/scope/digest.spec.js`, stated over arbitrary values. They are the
  counter watcher, the old value of a first call, a watcher without a
  listener, chained watchers, and the mutual-increment pair that never
  settles.
- `sentinel.dfy`, module `Sentinel`: the `uuid` sentinel as the source
  actually holds it (see Findings).

Modelling choices:

- The scope's user fields are a `State` (`map<string, Value>`). A missing
  field reads as `Undefined`.
- A watch expression is a pure function of the state. A listener maps
  `(newValue, oldValue, state)` to the state it leaves behind.
- The sentinel is the `Unset` case of `Last`, so it is distinct from every
  value and can never reach a listener.
- `$$lastDirtyWatch` is an index into the watcher list. Watchers are never
  removed, so an index names one watcher for good.
- A sweep's short-circuit is a flag of `SweepFrom`. With the flag off, the
  same function is the exhaustive reference sweep that the optimisation is
  proved against.
- The exception thrown by `$digest` is the outcome `IterationsExceeded`. The
  scope it carries is the one the last sweep left behind.

## Model

| member | source | states |
|---|---|---|
| Values.StrictEquals | src/scope.js:66-66 | `===` holds exactly when both sides have the same identity (primitives by value, arrays and objects by reference id) and the left side is not NaN |
| Values.DeepEqual | src/scope.js:63-64 | the structural comparison holds between a value and itself, and only between values of the same kind (array, object, NaN or other) |
| Values.DeepEqualIffSameShape | src/scope.js:63-64 | the recursive structural comparison holds exactly when the two values have the same shape once reference ids are erased |
| Values.AreEqual | src/scope.js:62-69 | without the flag, `$$areEqual` holds exactly when the two values have the same identity, so two NaNs are equal although `===` says otherwise |
| Values.AreEqualIffSameKey | src/scope.js:62-69 | `$$areEqual` compares one key per value: the shape in deep mode, else the identity; without the flag it holds exactly for identical values or two NaNs |
| Values.AreEqualReflexive | src/scope.js:66-68 | every value, NaN included, is equal to itself under both policies, so a watcher that keeps returning NaN becomes clean after its first call |
| Values.AreEqualSymmetric | src/scope.js:62-69 | the equality policy does not depend on argument order |
| Values.AreEqualTransitive | src/scope.js:62-69 | the equality policy is transitive |
| Values.NaNIsEqualOnlyUnderPolicy | src/scope.js:66-68 | NaN is not `===` to itself, yet `$$areEqual` counts it equal to itself |
| Values.ShallowIgnoresInPlaceMutation | src/scope.js:66-66 | without the flag, an array mutated in place still equals its earlier snapshot, because the reference is the same |
| Values.DeepDetectsPush | src/scope.js:63-64 | with the flag, pushing onto a watched array is a change; without it, it is not |
| Scopes.NewScope | src/scope.js:26-35 | a new scope has no watchers, no last dirty watcher, and the given user fields |
| Scopes.Watch | src/scope.js:139-149 | `$watch` appends exactly one watcher at the end with the sentinel as baseline, keeps every earlier watcher and its position, clears the last dirty watcher and leaves the user fields alone |
| Scopes.WatchWithDefaults | src/scope.js:139-139 | without a listener or flag, the new watcher's listener leaves every state unchanged and it compares by `===` |
| Scopes.SweepFrom | src/scope.js:82-105 | a sweep keeps the number of watchers, and the watchers it evaluates lie between its starting point and the end |
| Scopes.SweepFromKeepsRegistrations | src/scope.js:85-102 | a sweep changes baselines only; expressions, listeners, flags and order stay as they were |
| Scopes.SweepFromDirtyFlag | src/scope.js:91-104 | the returned flag is set exactly when some listener ran, and the last dirty watcher ends up naming the watcher whose listener ran last (or stays as it was) |
| Scopes.SweepFromFireOrder | src/scope.js:85-102 | listeners run in registration order, at most once per watcher per sweep, and only for watchers the sweep reached |
| Scopes.SweepFromStopsOnlyWhenQuiet | src/scope.js:99-101 | a sweep stops early only at the last dirty watcher, found clean, with no listener run before it in the sweep, so it reports "not dirty" and changes nothing; a sweep that does not stop visits every watcher |
| Scopes.SweepFromKeepsUnfired | src/scope.js:91-101 | a watcher whose listener did not run keeps its baseline |
| Scopes.SweepFromRecordsChanges | src/scope.js:88-97 | each listener call is given what its watch expression returned in the state the call was made in; that value is a real change of the watcher's baseline; the old value given is the baseline (or the new value when the baseline was the sentinel); and the new value becomes the baseline |
| Scopes.SweepFromRecordsResults | src/scope.js:94-97 | each call's recorded result is what its watcher's listener returns for that new value, old value and state |
| Scopes.SweepFromThreadsState | src/scope.js:88-97 | listeners run one after another on the same scope: the first sees the state the sweep started in, each later one sees what the previous one left, and the sweep ends in the state the last one left |
| Scopes.SweepFromFiresEveryChange | src/scope.js:88-98 | conversely, every watcher the sweep reached without firing was clean in the state it was evaluated in, so no change the sweep reached goes unreported |
| Scopes.SweepFromFiresFresh | src/scope.js:89-96 | a watcher still holding the sentinel fires whenever the sweep reaches it, whatever it returns, `undefined` included |
| Scopes.SweepFromQuiet | src/scope.js:85-104 | a sweep that runs no listener leaves the scope unchanged and found every watcher it reached clean |
| Scopes.SweepFromTailClean | src/scope.js:85-102 | after a sweep that ran to the end, every watcher after the last one that fired is clean in the resulting state |
| Scopes.SweepFromOverCleanWatchers | src/scope.js:85-104 | over watchers that are all clean, a sweep runs nothing and changes nothing |
| Scopes.SweepFromSkipsClean | src/scope.js:91-101 | a run of clean watchers, none of them the last dirty one, is passed over without effect |
| Scopes.ShortCircuitAgreesFrom | src/scope.js:99-101 | when the watchers after the last dirty one are clean, stopping there gives the same listener calls, flag and scope as sweeping everything |
| Scopes.Sweep | src/scope.js:82-105 | one `$$digestOnce` reports "dirty" exactly when some listener ran, and one that runs none leaves the scope as it was |
| Scopes.ShortCircuitSound | src/scope.js:99-101 | the short-circuited sweep and the exhaustive one agree, given that invariant |
| Scopes.SweepKeepsShortCircuitSafe | src/scope.js:91-101 | each sweep re-establishes that invariant: every watcher after the new last dirty one is clean |
| Scopes.CleanSweepLeavesAllClean | src/scope.js:82-105 | a sweep that reports "not dirty" leaves the scope as it was, with every watcher clean |
| Scopes.SweepOfAllCleanIsQuiet | src/scope.js:82-105 | a sweep over a scope whose watchers are all clean runs no listener and is not dirty |
| Scopes.SweepCallsFreshWatchers | src/scope.js:88-97 | a sweep that starts with no last dirty watcher calls every sentinel-holding watcher's listener with what its watch expression returned, as both new and old value |
| Scopes.SweepAfterWatch | src/scope.js:88-97 | right after `$watch` on a scope whose watchers are all clean, a sweep runs exactly the new listener, once, with the expression's value in the scope's state as both new and old value, and leaves that value as its baseline |
| Scopes.DigestOnce | src/scope.js:82-105 | the loop computes the sweep; it is dirty exactly when some listener ran, and stopping early means "not dirty" with the scope unchanged |
| Digests.DigestLoop | src/scope.js:182-188 | the loop makes between one and `ttl + 1` sweeps, exactly `ttl + 1` when it gives up, and its first sweep's listener calls come first |
| Digests.DigestRun | src/scope.js:176-189 | `$digest` makes between one and eleven sweeps, exactly eleven when it throws, and the calls of its first full sweep come first |
| Digests.DigestLoopEndsAtFirstCleanSweep | src/scope.js:182-188 | the loop gives up exactly when its first `ttl + 1` sweeps are all dirty; otherwise it stops at the first clean sweep, all earlier ones having been dirty |
| Digests.DigestThrowsIffElevenDirtySweeps | src/scope.js:176-188 | `$digest` throws exactly when eleven sweeps in a row are dirty, and never makes more than eleven sweeps |
| Digests.DigestLoopKeepsRegistrations | src/scope.js:182-188 | the digest loop keeps every registration, in order |
| Digests.SettledLoopLeavesAllClean | src/scope.js:182-188 | when the loop ends normally, every watcher's baseline agrees with its watch expression in the final state |
| Digests.SettledDigestLeavesAllClean | tests/scope/digest.spec.js:89-117 | after a `$digest` that returns normally every watcher is clean, so a listener's write to a field an earlier watcher reads was caught in the same call |
| Digests.DigestOfAllCleanIsQuiet | src/scope.js:176-188 | a digest over all-clean watchers makes one sweep, runs no listener and changes only the last-dirty marker |
| Digests.NewScopeDigestIsQuiet | src/scope.js:26-35 | a new scope's digest makes one quiet sweep and leaves it as it was |
| Digests.DigestIdempotent | tests/scope/digest.spec.js:41-45 | after a `$digest` that returns normally, a second one with no mutation in between makes one sweep and runs no listener |
| Digests.ShortCircuitAgreesOverDigest | src/scope.js:180-188 | from a scope where the short-circuit is safe, the digest loop with it and without it gives identical results |
| Digests.DigestIgnoresShortCircuit | src/scope.js:176-188 | since `$digest` clears the last dirty watcher first, its result is that of a digest that sweeps every watcher every time |
| Digests.NewWatcherFiresOnNextDigest | tests/scope/digest.spec.js:54-78 | a watcher just registered has its listener called by the next `$digest`, with what its expression returned in that call's state as both new and old value |
| Digests.DigestAfterWatchFirstCall | tests/scope/digest.spec.js:66-78 | on a scope whose watchers are all clean, the first listener the next `$digest` runs is the new one, given its expression's value in the scope's state as both new and old value |
| Digests.SweepUntilClean | src/scope.js:182-188 | the `do … while` loop with the post-decremented budget computes the digest loop: at most eleven sweeps, exactly eleven when it gives up |
| Digests.Digest | src/scope.js:176-189 | `$digest` computes the digest and makes at most eleven sweeps; when it returns normally every watcher is clean; it keeps all registrations |
| DigestScenarios.Increment | tests/scope/digest.spec.js:36-36 | `field++` leaves every other field alone, turns a number into the next one and a missing field into NaN, and always leaves a number or NaN |
| DigestScenarios.Truthy | tests/scope/digest.spec.js:95-95 | a value is truthy exactly when it is none of `undefined`, `null`, `false`, `0`, NaN and the empty string |
| DigestScenarios.Upper | tests/scope/digest.spec.js:105-105 | upper-casing keeps the length, turns each lower-case letter into its capital, keeps every other character, and leaves no lower-case letter |
| DigestScenarios.SetInitial | tests/scope/digest.spec.js:94-98 | the first chained listener writes only `initial`, and for a truthy string writes its first character and a dot; a falsy value leaves the scope alone |
| DigestScenarios.SetNameUpper | tests/scope/digest.spec.js:103-107 | the second chained listener writes only `nameUpper`, and for a truthy string writes it upper-cased; a falsy value leaves the scope alone |
| DigestScenarios.DefaultWatcherDigest | tests/scope/digest.spec.js:80-87 | a watcher registered without a listener is evaluated, fires once and leaves the state alone, and the digest ends after two sweeps, for every value the model's expressions can return, NaN included |
| DigestScenarios.CounterScenario | tests/scope/digest.spec.js:30-52 | the counting listener runs once on the first digest, not on a second one, and once more after the watched field is set to a value not equal to the old one under `$$areEqual`, each call given the value it replaced |
| DigestScenarios.FirstOldValueScenario | tests/scope/digest.spec.js:66-78 | on a fresh scope holding `someValue` (123 in the test), the first `$digest` calls the listener once with that value as both new and old value, and what it stored is still there at the end |
| DigestScenarios.RacingSweep | tests/scope/digest.spec.js:123-135 | one sweep over the two mutually incrementing watchers runs both listeners and leaves them racing one step further on |
| DigestScenarios.RacingStaysDirty | tests/scope/digest.spec.js:123-135 | every sweep over the racing pair is dirty, for as many sweeps as the counters stay safe integers |
| DigestScenarios.MutualIncrementThrows | tests/scope/digest.spec.js:119-138 | `$digest` on the mutual-increment pair, started from safe-integer counters, gives up after exactly eleven sweeps |
| DigestScenarios.ChainedFirstDigest | tests/scope/digest.spec.js:90-111 | the first chained digest derives `nameUpper` and then `initial` from `name` in three sweeps |
| DigestScenarios.ChainedRenameDigest | tests/scope/digest.spec.js:113-116 | after `name` changes, the next digest re-derives both fields in three sweeps |
| DigestScenarios.ChainedScenario | tests/scope/digest.spec.js:89-117 | `initial` is the first upper-cased letter of `name` and a dot after the first digest and again after a rename |
| Sentinel.WatchingUuidSkipsFirstCall | src/scope.js:40-44 | as written, a watch expression that returns `scope.uuid` is not dirty on its first evaluation |

## Left out

- Deep equality is structural equality on the modelled values. The deep-equality library routine's handling of cycles, functions, dates, typed arrays and prototypes is not part of this model.
- Deep cloning of the baseline is the identity, since modelled values are immutable. The clone's fresh reference ids are not modelled. Deep comparison ignores ids, so the deep watcher's own firing decisions are unchanged. Its listener's `oldValue`, however, keeps the watched value's reference ids, whereas the source passes the fresh clone stored at `src/scope.js:93`, which is never `===` to anything seen before. A listener that stores that `oldValue` where a watcher without the deep flag reads it makes that watcher fire on every sweep in the source, but not in the model.
- Without the deep flag, `src/scope.js:93` keeps the live reference as the baseline, so a later in-place mutation of the watched array or object also shows in the `oldValue` handed to a listener. Model values are immutable snapshots, so the model's `oldValue` shows the contents as they were when the baseline was taken; identity comparison, and hence every firing decision, is the same.
- A watch expression is a function of the state, so evaluating it twice in the same state gives the same value, reference id included. An expression that allocates a new array or object on every call (`() => []`) has no counterpart: in the source it is never `===` to its baseline without the deep flag, so every sweep is dirty and `$digest` throws (`src/scope.js:66`, `src/scope.js:185-186`).
- The visiting routine of the library is a plain walk over the watchers present when the sweep starts. Listeners cannot register watchers in this model, so whether a watcher added mid-sweep is visited is not modelled.
- Numbers are integers plus a separate NaN value. Fractions, `-0` and the infinities are not modelled.
- DigestScenarios.Increment: counts on unbounded integers, while JavaScript's `++` on a double stops changing a number at 2^53. The scenarios that count therefore require their counters to stay within the safe integers (±`Number.MAX_SAFE_INTEGER`) for the steps they take.
- DigestScenarios.Increment: converts only numbers, `null` and booleans the way JavaScript does. Strings, arrays and objects become NaN, whereas JavaScript converts them through their string form: a numeric string such as `"5"` or `" 5 "` becomes 5 (then 6), an empty or blank string such as `""` or `" "` and an empty array `[]` become 0 (then 1), and a one-element array such as `[5]` becomes its element's number (then 6). The scenarios only increment numbers.
- DigestScenarios.SetInitial and DigestScenarios.SetNameUpper: for a truthy value that is not a string, the source listeners would throw, because it has no `substring` or `toUpperCase` method. The model leaves the scope unchanged instead. The scenarios only feed them strings.
- DigestScenarios.SetInitial: model strings are sequences of Unicode scalar values, while JavaScript strings are sequences of UTF-16 code units, and `substring(0, 1)` (`tests/scope/digest.spec.js:96`) takes the first code unit. For a name that starts outside the Basic Multilingual Plane (an emoji such as U+1F600, say), the source stores only the high surrogate and a dot in `initial`, a value a model string cannot even hold, while the model stores the whole character and a dot. `DigestScenarios.ChainedFirstDigest`, `DigestScenarios.ChainedRenameDigest` and `DigestScenarios.ChainedScenario` carry this difference into `initial`. They agree with the source for every name whose first character lies in the Basic Multilingual Plane.
- DigestScenarios.Upper upper-cases ASCII letters only.
- Watch expressions are pure and total, and listeners are total. A watch expression that writes to the scope, and an exception thrown by either, are not modelled. `src/scope.js:88` calls the watch expression unguarded, so an exception from it aborts `$digest`; the model has no exceptions.
- The text of the thrown message (`src/scope.js:186`) is not modelled. The throw is the outcome `IterationsExceeded`.
- A watch expression receives the scope's user fields, not the scope object, so the expectation that it is called with the scope itself (`tests/scope/digest.spec.js:20-28`) is reflected only in its signature.
- `$$digestOnce` returns `undefined` when no listener ran. The model returns `false`, which `$digest` treats the same way.
- Scopes.SweepFrom: its own contract only bounds the sweep. What it computes is stated by the `SweepFrom…` lemmas, because one contract carrying them all costs too much to verify. Together, `SweepFromRecordsChanges`, `SweepFromRecordsResults`, `SweepFromThreadsState` and `SweepFromFiresEveryChange` state which watchers fire, with which values, in which state and with what result.
- `karma.conf.js` and `tests/scope/scope.spec.js` are test tooling and a trivial constructor check, with no logic to model.

## Findings

| source | as written | input that shows it | evidently intended | confidence | as-written member | corrected member |
|---|---|---|---|---|---|---|
| src/scope.js:44 | A fresh watcher's baseline is the prototype method `uuid`, which every scope exposes as `scope.uuid`. `$$areEqual(scope.uuid, scope.uuid, …)` holds under both policies. | `scope.$watch(s => s.uuid, listener); scope.$digest();`: the watcher is found clean and `listener` is not called | the documentation at lines 40-42 promises a marker different from anything a watch function might return, so every new watcher fires on its first digest | not executed; the collision follows from `===` on one function object | Sentinel.WatchingUuidSkipsFirstCall | Scopes.SweepCallsFreshWatchers |

=== FILE: digest.dfy ===
/** `$digest`: sweep until a sweep is clean, giving up when the iteration
    budget runs out. */
module Digests {
  import opened Values
  import opened Scopes

  /** The iteration budget `$digest` starts each call with. */
  const TTL: nat := 10

  /** The most sweeps one `$digest` call can make: `!(TTL--)` tests the
      budget before decrementing it, so the sweep that finds it at zero is
      the eleventh dirty one. */
  const MaxSweeps: nat := TTL + 1

  /** How a `$digest` call ends: normally, or by throwing because the
      budget ran out while the scope was still dirty. */
  datatype Outcome = Settled | IterationsExceeded

  /** The scope after a `$digest` call (it is left as the last sweep made
      it, also when the call throws), how the call ended, how many sweeps it
      made, and every listener call in order. */
  datatype Digestion = Digestion(scope: Scope, outcome: Outcome, sweeps: nat, fired: seq<Fire>)

  /** The `do { … } while (dirty)` loop of `$digest` with `ttl` left, after
      `sweeps` sweeps that ran the listeners `fired`. */
  function DigestLoop(sc: Scope, ttl: nat, shortCircuit: bool, sweeps: nat, fired: seq<Fire>): (r: Digestion)
    ensures sweeps + 1 <= r.sweeps <= sweeps + ttl + 1
    ensures r.outcome == IterationsExceeded ==> r.sweeps == sweeps + ttl + 1
    ensures fired + SweepFrom(sc, 0, false, shortCircuit).fired <= r.fired
    decreases ttl
  {
    var sw := SweepFrom(sc, 0, false, shortCircuit);
    if !sw.dirty then Digestion(sw.scope, Settled, sweeps + 1, fired + sw.fired)
    else if ttl == 0 then Digestion(sw.scope, IterationsExceeded, sweeps + 1, fired + sw.fired)
    else DigestLoop(sw.scope, ttl - 1, shortCircuit, sweeps + 1, fired + sw.fired)
  }

  /** `$digest`: forget the last dirty watcher, then sweep with a budget of
      `TTL`. */
  function DigestRun(sc: Scope): (r: Digestion)
    ensures 1 <= r.sweeps <= MaxSweeps
    ensures r.outcome == IterationsExceeded ==> r.sweeps == MaxSweeps
    ensures Sweep(sc.(lastDirtyWatch := None)).fired <= r.fired
  {
    DigestLoop(sc.(lastDirtyWatch := None), TTL, true, 0, [])
  }

  /** `k` consecutive sweeps from `sc` are all dirty. */
  predicate DirtyRun(sc: Scope, k: nat)
    decreases k
  {
    k == 0 || (Sweep(sc).dirty && DirtyRun(Sweep(sc).scope, k - 1))
  }

  /** The scope after `k` consecutive sweeps. */
  function SweepTimes(sc: Scope, k: nat): Scope
    decreases k
  {
    if k == 0 then sc else SweepTimes(Sweep(sc).scope, k - 1)
  }

  /** Bounded digest: the loop gives up exactly when its first `ttl + 1`
      sweeps are all dirty; otherwise it stops after the first clean sweep,
      all earlier ones having been dirty. */
  lemma {:induction false} DigestLoopEndsAtFirstCleanSweep(sc: Scope, ttl: nat, sweeps: nat, fired: seq<Fire>)
    ensures var r := DigestLoop(sc, ttl, true, sweeps, fired);
      && (r.outcome == IterationsExceeded <==> DirtyRun(sc, ttl + 1))
      && (r.outcome == Settled ==>
            DirtyRun(sc, r.sweeps - sweeps - 1) && !Sweep(SweepTimes(sc, r.sweeps - sweeps - 1)).dirty)
      && r.scope == SweepTimes(sc, r.sweeps - sweeps)
    decreases ttl
  {
    var sw := Sweep(sc);
    if sw.dirty && ttl > 0 {
      DigestLoopEndsAtFirstCleanSweep(sw.scope, ttl - 1, sweeps + 1, fired + sw.fired);
    }
  }

  /** `$digest` throws exactly when eleven sweeps in a row are dirty. */
  lemma DigestThrowsIffElevenDirtySweeps(sc: Scope)
    ensures DigestRun(sc).outcome == IterationsExceeded <==>
      DirtyRun(sc.(lastDirtyWatch := None), MaxSweeps)
    ensures DigestRun(sc).sweeps <= MaxSweeps
  {
    DigestLoopEndsAtFirstCleanSweep(sc.(lastDirtyWatch := None), TTL, 0, []);
  }

  /** The digest loop keeps every registration, in order. */
  lemma {:induction false} DigestLoopKeepsRegistrations(sc: Scope, ttl: nat, shortCircuit: bool, sweeps: nat, fired: seq<Fire>)
    ensures SameRegistrations(sc.watchers, DigestLoop(sc, ttl, shortCircuit, sweeps, fired).scope.watchers)
    decreases ttl
  {
    var sw := SweepFrom(sc, 0, false, shortCircuit);
    SweepFromKeepsRegistrations(sc, 0, false, shortCircuit);
    if sw.dirty && ttl > 0 {
      DigestLoopKeepsRegistrations(sw.scope, ttl - 1, shortCircuit, sweeps + 1, fired + sw.fired);
    }
  }

  /** Chained watchers: when the loop ends normally, every watcher's baseline
      agrees with what its watch expression returns in the final state, so a
      listener's write to a field an earlier watcher reads was caught by a
      later sweep of the same call. */
  lemma {:induction false} SettledLoopLeavesAllClean(sc: Scope, ttl: nat, sweeps: nat, fired: seq<Fire>)
    requires ShortCircuitSafe(sc)
    ensures var r := DigestLoop(sc, ttl, true, sweeps, fired);
      r.outcome == Settled ==> AllClean(r.scope)
    decreases ttl
  {
    var sw := Sweep(sc);
    CleanSweepLeavesAllClean(sc);
    if sw.dirty && ttl > 0 {
      SweepKeepsShortCircuitSafe(sc);
      SettledLoopLeavesAllClean(sw.scope, ttl - 1, sweeps + 1, fired + sw.fired);
    }
  }

  lemma SettledDigestLeavesAllClean(sc: Scope)
    ensures DigestRun(sc).outcome == Settled ==> AllClean(DigestRun(sc).scope)
  {
    SettledLoopLeavesAllClean(sc.(lastDirtyWatch := None), TTL, 0, []);
  }

  /** A digest over a scope whose watchers are all clean makes one sweep,
      runs no listener and changes nothing but the last-dirty marker. */
  lemma DigestOfAllCleanIsQuiet(sc: Scope)
    requires AllClean(sc)
    ensures DigestRun(sc).outcome == Settled
    ensures DigestRun(sc).sweeps == 1
    ensures DigestRun(sc).fired == []
    ensures DigestRun(sc).scope == sc.(lastDirtyWatch := None)
  {
    SweepOfAllCleanIsQuiet(sc.(lastDirtyWatch := None));
  }

  /** A scope straight from the constructor has nothing to watch: its
      digest makes one quiet sweep and leaves it as it was. */
  lemma NewScopeDigestIsQuiet(state: State)
    ensures DigestRun(NewScope(state)) == Digestion(NewScope(state), Settled, 1, [])
  {
    DigestOfAllCleanIsQuiet(NewScope(state));
  }

  /** Idempotent digest: after a `$digest` that returns normally, a second
      one with no mutation in between fires no listener. */
  lemma DigestIdempotent(sc: Scope)
    requires DigestRun(sc).outcome == Settled
    ensures var again := DigestRun(DigestRun(sc).scope);
      && again.outcome == Settled
      && again.sweeps == 1
      && again.fired == []
      && again.scope == DigestRun(sc).scope.(lastDirtyWatch := None)
  {
    SettledDigestLeavesAllClean(sc);
    DigestOfAllCleanIsQuiet(DigestRun(sc).scope);
  }

  /** The short-circuit is an optimisation only: with the last-dirty marker
      reset as `$digest` does, the digest runs the same listeners, ends the
      same way and leaves the same scope as one that sweeps every watcher
      every time. */
  lemma {:induction false} ShortCircuitAgreesOverDigest(sc: Scope, ttl: nat, sweeps: nat, fired: seq<Fire>)
    requires ShortCircuitSafe(sc)
    ensures DigestLoop(sc, ttl, true, sweeps, fired) == DigestLoop(sc, ttl, false, sweeps, fired)
    decreases ttl
  {
    ShortCircuitSound(sc);
    var sw := Sweep(sc);
    if sw.dirty && ttl > 0 {
      SweepKeepsShortCircuitSafe(sc);
      ShortCircuitAgreesOverDigest(sw.scope, ttl - 1, sweeps + 1, fired + sw.fired);
    }
  }

  lemma DigestIgnoresShortCircuit(sc: Scope)
    ensures DigestRun(sc) == DigestLoop(sc.(lastDirtyWatch := None), TTL, false, 0, [])
  {
    ShortCircuitAgreesOverDigest(sc.(lastDirtyWatch := None), TTL, 0, []);
  }

  /** A watcher just registered with `$watch` has its listener called by the
      next `$digest`, given the value it found as both the new and the old
      value; so does every other watcher still holding the sentinel. */
  lemma NewWatcherFiresOnNextDigest(sc: Scope, watchExpression: State -> Value, listener: Listener, equality: bool)
    ensures FirstCallAt(DigestRun(Watch(sc, watchExpression, listener, equality)).fired, |sc.watchers|, watchExpression)
  {
    var registered := Watch(sc, watchExpression, listener, equality);
    var first := Sweep(registered);
    var r := DigestRun(registered);
    SweepCallsFreshWatchers(registered);
    assert registered.(lastDirtyWatch := None) == registered;
    var k :| 0 <= k < |first.fired| && first.fired[k].watcher == |sc.watchers| &&
      first.fired[k].newValue == watchExpression(first.fired[k].state) && first.fired[k].oldValue == first.fired[k].newValue;
    assert r.fired[k] == first.fired[k];
  }

  /** On a scope whose watchers are all clean, the first listener a
      `$digest` after `$watch` runs is the new one, given what its watch
      expression returns in the scope's state as both new and old value. */
  lemma DigestAfterWatchFirstCall(sc: Scope, watchExpression: State -> Value, listener: Listener, equality: bool)
    requires AllClean(sc)
    ensures var v := watchExpression(sc.state);
      var r := DigestRun(Watch(sc, watchExpression, listener, equality));
      r.fired != [] && r.fired[0] == Fire(|sc.watchers|, v, v, sc.state, listener(v, v, sc.state))
  {
    var registered := Watch(sc, watchExpression, listener, equality);
    SweepAfterWatch(sc, watchExpression, listener, equality);
    assert registered.(lastDirtyWatch := None) == registered;
    var r := DigestRun(registered);
    assert r.fired[0] == Sweep(registered).fired[0];
  }

  /** The `do { … } while (dirty)` loop of `$digest`, as the source runs it:
      `!(TTL--)` tests the budget and then decrements it. */
  method SweepUntilClean(sc: Scope) returns (r: Digestion)
    ensures r == DigestLoop(sc, TTL, true, 0, [])
    ensures 1 <= r.sweeps <= MaxSweeps
    ensures r.outcome == IterationsExceeded ==> r.sweeps == MaxSweeps
  {
    ghost var target := DigestLoop(sc, TTL, true, 0, []);
    var ttl: int := TTL;
    var cur := sc;
    var sweeps := 0;
    var fired: seq<Fire> := [];
    while true
      invariant 0 <= ttl <= TTL
      invariant target == DigestLoop(cur, ttl, true, sweeps, fired)
      decreases ttl
    {
      var sw := DigestOnce(cur);
      sweeps := sweeps + 1;
      fired := fired + sw.fired;
      cur := sw.scope;
      if !sw.dirty {
        return Digestion(cur, Settled, sweeps, fired);
      }
      var expired := ttl == 0;
      ttl := ttl - 1;
      if expired {
        return Digestion(cur, IterationsExceeded, sweeps, fired);
      }
    }
  }

  /** `$digest`: reset the last-dirty marker, then sweep until clean. */
  method Digest(sc: Scope) returns (r: Digestion)
    ensures r == DigestRun(sc)
    ensures 1 <= r.sweeps <= MaxSweeps
    ensures r.outcome == IterationsExceeded ==> r.sweeps == MaxSweeps
    ensures r.outcome == Settled ==> AllClean(r.scope)
    ensures SameRegistrations(sc.watchers, r.scope.watchers)
  {
    r := SweepUntilClean(sc.(lastDirtyWatch := None));
    SettledDigestLeavesAllClean(sc);
    DigestLoopKeepsRegistrations(sc.(lastDirtyWatch := None), TTL, true, 0, []);
  }
}

=== FILE: scenarios.dfy ===
/** Concrete watcher set-ups from the digest behaviour the scope promises,
    stated over the model: a counter watcher, a pair of chained watchers, and
    two watchers that keep each other dirty forever. */
module DigestScenarios {
  import opened Values
  import opened Scopes
  import opened Digests

  /** `Number.MAX_SAFE_INTEGER`: up to here a double counts exactly. */
  const MaxSafeInteger := 9007199254740991

  /** Field `field` holds a number that `steps` increments keep within the
      safe integers, where `++` on a double and on an `int` agree. */
  predicate SafeCount(s: State, field: string, steps: nat)
  {
    Get(s, field).Num? && -MaxSafeInteger <= Get(s, field).n && Get(s, field).n + steps <= MaxSafeInteger
  }

  /** JavaScript's `ToNumber` on the operands it converts without parsing:
      numbers, `null` and the booleans; everything else becomes NaN here. */
  function ToNumber(v: Value): Value
  {
    match v
    case Num(_) => v
    case Null => Num(0)
    case Bool(b) => Num(if b then 1 else 0)
    case _ => NaN
  }

  /** JavaScript `field++` on a scope field: the field is converted to a
      number and goes up by one; a missing field (`undefined`) becomes NaN.
      No other field changes. */
  function Increment(s: State, field: string): (r: State)
    ensures forall f :: f != field ==> Get(r, f) == Get(s, f)
    ensures Get(s, field).Num? ==> Get(r, field) == Num(Get(s, field).n + 1)
    ensures Get(s, field).Undefined? ==> Get(r, field) == NaN
    ensures Get(r, field).Num? || Get(r, field).NaN?
  {
    var n := ToNumber(Get(s, field));
    s[field := if n.Num? then Num(n.n + 1) else NaN]
  }

  /** May have watchers that omit the listener: on a fresh scope, a watcher
      registered with the defaults is evaluated, its no-op listener runs once
      and changes nothing, and the next sweep finds it clean and ends the
      call. This holds for every value the expression can return here, NaN
      included, since `$$areEqual` takes NaN to equal itself; an expression
      that builds a new array or object on every call has no counterpart in
      the model. */
  lemma DefaultWatcherDigest(state: State, watchExpression: State -> Value)
    ensures var d := DigestRun(WatchWithDefaults(NewScope(state), watchExpression));
      && d.outcome == Settled && d.sweeps == 2
      && d.fired == [Fire(0, watchExpression(state), watchExpression(state), state, state)]
      && d.scope.state == state
      && d.scope.watchers[0].last == Seen(watchExpression(state))
  {
    var sc := WatchWithDefaults(NewScope(state), watchExpression);
    var v := watchExpression(state);
    var w := sc.watchers[0];
    assert sc == Scope([w], None, state);
    var sc1 := AfterFire(sc, 0, v);
    assert sc1 == Scope([w.(last := Seen(v))], Some(0), state);
    var sw1 := Sweep(sc);
    assert SweepFrom(sc1, 1, true, true) == SweepResult(sc1, true, [], 1, false);
    assert sw1 == SweepResult(sc1, true, [Fire(0, v, v, state, state)], 1, false);
    AreEqualReflexive(v, false);
    assert Sweep(sc1) == SweepResult(sc1, false, [], 1, true);
    assert DigestLoop(sc1, TTL - 1, true, 1, sw1.fired) == Digestion(sc1, Settled, 2, sw1.fired);
  }

  /** A watcher on `someValue` whose listener counts its own calls. */
  function SomeValue(s: State): Value { Get(s, "someValue") }
  function BumpCounter(newValue: Value, oldValue: Value, s: State): State { Increment(s, "counter") }

  function CounterWatcher(last: Last): Watcher
  {
    Watcher(SomeValue, BumpCounter, false, last)
  }

  /** A `$digest` over the counter watcher when `someValue` has changed: the
      listener runs once, with the baseline (or the value itself, the first
      time) as old value; the second sweep finds the watcher clean, stops
      there and ends the call. */
  lemma CounterDigest(ld: Option<nat>, state: State, last: Last)
    requires Get(state, "counter").Num?
    requires Changed(Get(state, "someValue"), last, false)
    ensures DigestRun(Scope([CounterWatcher(last)], ld, state)) ==
      Digestion(Scope([CounterWatcher(Seen(Get(state, "someValue")))], Some(0), Increment(state, "counter")),
                Settled, 2, [Fire(0, Get(state, "someValue"), OldValueFor(Get(state, "someValue"), last),
                                  state, Increment(state, "counter"))])
  {
    var v := Get(state, "someValue");
    var sc := Scope([CounterWatcher(last)], None, state);
    assert sc.watchers[0].watchExpression(sc.state) == v;
    var sc1 := AfterFire(sc, 0, v);
    assert sc1 == Scope([CounterWatcher(Seen(v))], Some(0), Increment(state, "counter"));
    var sw1 := Sweep(sc);
    assert SweepFrom(sc1, 1, true, true) == SweepResult(sc1, true, [], 1, false);
    assert sw1 == SweepResult(sc1, true, [FireAt(sc, 0, v)], 1, false);
    assert sc1.watchers[0].watchExpression(sc1.state) == v;
    AreEqualReflexive(v, false);
    assert Sweep(sc1) == SweepResult(sc1, false, [], 1, true);
    assert DigestLoop(sc1, TTL - 1, true, 1, sw1.fired) == Digestion(sc1, Settled, 2, sw1.fired);
  }

  /** Calls the listener when the watched value changes: registered on a
      scope holding `someValue` and a numeric counter, the watcher bumps the
      counter on the first `$digest`, leaves it alone on a second one, and
      bumps it again once `someValue` is set to a value that is not `===`
      to the old one; each call is told the value it replaced. */
  lemma CounterScenario(v: Value, c: int, w: Value)
    requires -MaxSafeInteger <= c && c + 2 <= MaxSafeInteger
    requires !AreEqual(w, v, false)
    ensures var s0 := map["someValue" := v, "counter" := Num(c)];
      var sc := Watch(NewScope(s0), SomeValue, BumpCounter, false);
      var d1 := DigestRun(sc);
      var d2 := DigestRun(d1.scope);
      var s2 := d2.scope.state["someValue" := w];
      var d3 := DigestRun(d2.scope.(state := s2));
      && d1.outcome == Settled && d1.fired == [Fire(0, v, v, s0, Increment(s0, "counter"))]
      && Get(d1.scope.state, "counter") == Num(c + 1)
      && d2.outcome == Settled && d2.fired == [] && Get(d2.scope.state, "counter") == Num(c + 1)
      && d3.outcome == Settled && d3.fired == [Fire(0, w, v, s2, Increment(s2, "counter"))]
      && Get(d3.scope.state, "counter") == Num(c + 2)
  {
    var state := map["someValue" := v, "counter" := Num(c)];
    var sc := Watch(NewScope(state), SomeValue, BumpCounter, false);
    assert sc == Scope([CounterWatcher(Unset)], None, state);
    CounterDigest(None, state, Unset);
    var d1 := DigestRun(sc);
    var s1 := Increment(state, "counter");
    assert d1.scope == Scope([CounterWatcher(Seen(v))], Some(0), s1);
    AreEqualReflexive(v, false);
    assert Clean(d1.scope.watchers[0], s1);
    DigestOfAllCleanIsQuiet(d1.scope);
    var d2 := DigestRun(d1.scope);
    var s2 := s1["someValue" := w];
    assert d2.scope.(state := s2) == Scope([CounterWatcher(Seen(v))], None, s2);
    CounterDigest(None, s2, Seen(v));
  }

  /** A listener that stores the old value it is given in `oldValueGiven`. */
  function RecordOldValue(newValue: Value, oldValue: Value, s: State): State
  {
    s["oldValueGiven" := oldValue]
  }

  /** Calls the listener with newValue as oldValue the first time: on a fresh
      scope holding `someValue` (123, say), the first `$digest` hands the new
      watcher's listener that value as both new and old value, once, and the
      value it stored is still there when the call returns. */
  lemma FirstOldValueScenario(v: Value)
    ensures var s0 := map["someValue" := v];
      var d := DigestRun(Watch(NewScope(s0), SomeValue, RecordOldValue, false));
      && d.outcome == Settled && d.sweeps == 2
      && d.fired == [Fire(0, v, v, s0, s0["oldValueGiven" := v])]
      && Get(d.scope.state, "oldValueGiven") == v
  {
    var s0 := map["someValue" := v];
    var sc := Watch(NewScope(s0), SomeValue, RecordOldValue, false);
    SweepAfterWatch(NewScope(s0), SomeValue, RecordOldValue, false);
    var sw1 := Sweep(sc);
    var sc1 := sw1.scope;
    assert sc.(lastDirtyWatch := None) == sc;
    assert sc1.watchers[0].watchExpression(sc1.state) == v;
    AreEqualReflexive(v, false);
    assert Sweep(sc1) == SweepResult(sc1, false, [], 1, true);
    assert DigestLoop(sc1, TTL - 1, true, 1, sw1.fired) == Digestion(sc1, Settled, 2, sw1.fired);
  }

  /** JavaScript truthiness, as `if (newValue)` tests it: every value is
      truthy except the six falsy ones, and an empty array or object is
      truthy too. */
  function Truthy(v: Value): (r: bool)
    ensures r <==> v !in {Undefined, Null, Bool(false), Num(0), NaN, Str("")}
  {
    match v
    case Undefined => false
    case Null => false
    case Bool(b) => b
    case Num(n) => n != 0
    case NaN => false
    case Str(t) => t != []
    case _ => true
  }

  /** `toUpperCase` on the ASCII letters. */
  function UpperChar(c: char): (r: char)
    ensures 'a' <= c <= 'z' ==> r as int == c as int - 32
    ensures !('a' <= c <= 'z') ==> r == c
  {
    if 'a' <= c <= 'z' then (c as int - 'a' as int + 'A' as int) as char else c
  }

  /** `toUpperCase` on a string: the length is kept, every lower-case letter
      becomes its capital, every other character is kept, so no lower-case
      letter is left. */
  function Upper(t: string): (r: string)
    ensures |r| == |t|
    ensures forall i :: 0 <= i < |t| && 'a' <= t[i] <= 'z' ==> r[i] as int == t[i] as int - 32
    ensures forall i :: 0 <= i < |t| && !('a' <= t[i] <= 'z') ==> r[i] == t[i]
    ensures forall i :: 0 <= i < |r| ==> !('a' <= r[i] <= 'z')
  {
    seq(|t|, i requires 0 <= i < |t| => UpperChar(t[i]))
  }

  /** The chained pair: the first watcher derives `initial` from `nameUpper`,
      the second derives `nameUpper` from `name`, so the first one's input is
      written after it has already been checked in the same sweep. */
  function NameUpper(s: State): Value { Get(s, "nameUpper") }
  function Name(s: State): Value { Get(s, "name") }

  /** The first listener: for a truthy string it stores the string's first
      character and a dot in `initial`; otherwise the scope is left as it
      was. */
  function SetInitial(newValue: Value, oldValue: Value, s: State): (r: State)
    ensures forall f :: f != "initial" ==> Get(r, f) == Get(s, f)
    ensures !Truthy(newValue) ==> r == s
    ensures Truthy(newValue) && newValue.Str? ==>
      Get(r, "initial").Str? && |Get(r, "initial").s| == 2 &&
      Get(r, "initial").s[0] == newValue.s[0] && Get(r, "initial").s[1] == '.'
  {
    if Truthy(newValue) && newValue.Str? then s["initial" := Str(newValue.s[..1] + ".")] else s
  }

  /** The second listener: for a truthy string it stores the upper-cased
      string in `nameUpper`; otherwise the scope is left as it was. */
  function SetNameUpper(newValue: Value, oldValue: Value, s: State): (r: State)
    ensures forall f :: f != "nameUpper" ==> Get(r, f) == Get(s, f)
    ensures !Truthy(newValue) ==> r == s
    ensures Truthy(newValue) && newValue.Str? ==>
      Get(r, "nameUpper").Str? && |Get(r, "nameUpper").s| == |newValue.s| &&
      forall i :: 0 <= i < |newValue.s| ==> Get(r, "nameUpper").s[i] == UpperChar(newValue.s[i])
  {
    if Truthy(newValue) && newValue.Str? then s["nameUpper" := Str(Upper(newValue.s))] else s
  }

  function Chained(ld: Option<nat>, state: State, lastUpper: Last, lastName: Last): Scope
  {
    Scope([Watcher(NameUpper, SetInitial, false, lastUpper), Watcher(Name, SetNameUpper, false, lastName)], ld, state)
  }

  /** A sweep over the chained pair in which only the second watcher fires:
      `name` changed, and `nameUpper` still agrees with the first baseline. */
  lemma ChainedNameSweep(ld: Option<nat>, state: State, lastUpper: Last, lastName: Last)
    requires Name(state).Str? && Name(state).s != []
    requires !Changed(NameUpper(state), lastUpper, false) && ld != Some(0)
    requires Changed(Name(state), lastName, false)
    ensures Sweep(Chained(ld, state, lastUpper, lastName)) ==
      SweepResult(Chained(Some(1), SetNameUpper(Name(state), Name(state), state), lastUpper, Seen(Name(state))),
                  true, [Fire(1, Name(state), OldValueFor(Name(state), lastName), state,
                              SetNameUpper(Name(state), Name(state), state))], 2, false)
  {
    var sc := Chained(ld, state, lastUpper, lastName);
    var nm := Name(state);
    assert sc.watchers[0].watchExpression(sc.state) == NameUpper(state);
    assert sc.watchers[1].watchExpression(sc.state) == nm;
    var sc1 := AfterFire(sc, 1, nm);
    assert SweepFrom(sc1, 2, true, true) == SweepResult(sc1, true, [], 2, false);
    assert SweepFrom(sc, 1, false, true) == SweepResult(sc1, true, [FireAt(sc, 1, nm)], 2, false);
  }

  /** A sweep over the chained pair in which both watchers fire: nothing has
      run yet, so both still hold the sentinel, and `nameUpper` is unset. */
  lemma ChainedFirstSweep(state: State)
    requires Name(state).Str? && Name(state).s != []
    requires NameUpper(state) == Undefined
    ensures Sweep(Chained(None, state, Unset, Unset)) ==
      SweepResult(Chained(Some(1), SetNameUpper(Name(state), Name(state), state), Seen(Undefined), Seen(Name(state))),
                  true, [Fire(0, Undefined, Undefined, state, state),
                         Fire(1, Name(state), Name(state), state, SetNameUpper(Name(state), Name(state), state))], 2, false)
  {
    var sc := Chained(None, state, Unset, Unset);
    var nm := Name(state);
    assert sc.watchers[0].watchExpression(sc.state) == Undefined;
    var sc1 := AfterFire(sc, 0, Undefined);
    assert sc1 == Chained(Some(0), state, Seen(Undefined), Unset);
    assert sc1.watchers[1].watchExpression(sc1.state) == nm;
    var sc2 := AfterFire(sc1, 1, nm);
    assert SweepFrom(sc2, 2, true, true) == SweepResult(sc2, true, [], 2, false);
    assert SweepFrom(sc1, 1, true, true) == SweepResult(sc2, true, [FireAt(sc1, 1, nm)], 2, false);
  }

  /** A sweep over the chained pair in which only the first watcher fires,
      after the second one rewrote `nameUpper`; the sweep runs on past the
      second watcher, which is clean but not the last dirty one. */
  lemma ChainedUpperSweep(state: State, lastUpper: Last)
    requires Name(state).Str? && Name(state).s != []
    requires NameUpper(state) == Str(Upper(Name(state).s))
    requires Changed(NameUpper(state), lastUpper, false)
    ensures Sweep(Chained(Some(1), state, lastUpper, Seen(Name(state)))) ==
      SweepResult(Chained(Some(0), SetInitial(NameUpper(state), NameUpper(state), state), Seen(NameUpper(state)), Seen(Name(state))),
                  true, [Fire(0, NameUpper(state), OldValueFor(NameUpper(state), lastUpper), state,
                              SetInitial(NameUpper(state), NameUpper(state), state))], 2, false)
  {
    var nm := Name(state);
    var up := NameUpper(state);
    var sc := Chained(Some(1), state, lastUpper, Seen(nm));
    assert sc.watchers[0].watchExpression(sc.state) == up;
    var sc1 := AfterFire(sc, 0, up);
    assert sc1.state == state["initial" := Str(up.s[..1] + ".")];
    assert sc1.watchers[1].watchExpression(sc1.state) == nm;
    AreEqualReflexive(nm, false);
    assert SweepFrom(sc1, 2, true, true) == SweepResult(sc1, true, [], 2, false);
    assert SweepFrom(sc1, 1, true, true) == SweepResult(sc1, true, [], 2, false);
  }

  /** The sweep that ends a chained digest: the first watcher is clean and
      was the last dirty one, so the sweep stops there. */
  lemma ChainedQuietSweep(state: State, lastName: Last)
    ensures var sc := Chained(Some(0), state, Seen(NameUpper(state)), lastName);
      Sweep(sc) == SweepResult(sc, false, [], 1, true)
  {
    var sc := Chained(Some(0), state, Seen(NameUpper(state)), lastName);
    assert sc.watchers[0].watchExpression(sc.state) == NameUpper(state);
    AreEqualReflexive(NameUpper(state), false);
  }

  /** A `$digest` whose first two sweeps are dirty and whose third is clean
      returns normally after three sweeps. */
  lemma ThreeSweepDigest(sc: Scope)
    requires sc.lastDirtyWatch == None
    requires Sweep(sc).dirty && Sweep(Sweep(sc).scope).dirty
    requires !Sweep(Sweep(Sweep(sc).scope).scope).dirty
    ensures DigestRun(sc).outcome == Settled && DigestRun(sc).sweeps == 3
    ensures DigestRun(sc).scope == Sweep(Sweep(Sweep(sc).scope).scope).scope
  {
    var sw1 := Sweep(sc);
    var sw2 := Sweep(sw1.scope);
    assert sc.(lastDirtyWatch := None) == sc;
    assert DigestLoop(sw1.scope, TTL - 1, true, 1, sw1.fired) ==
      DigestLoop(sw2.scope, TTL - 2, true, 2, sw1.fired + sw2.fired);
  }

  /** The initial a chained digest derives from a non-empty name. */
  function Initial(name: string): Value
    requires name != []
  {
    Str([UpperChar(name[0])] + ".")
  }

  /** The first chained `$digest`: both watchers fire, then the first one
      catches up with the `nameUpper` the second one wrote, then a quiet
      sweep ends the call. */
  lemma ChainedFirstDigest(state: State, name: string)
    requires name != [] && Name(state) == Str(name)
    requires NameUpper(state) == Undefined
    ensures var d := DigestRun(Chained(None, state, Unset, Unset));
      && d.outcome == Settled && d.sweeps == 3
      && d.scope == Chained(Some(0), state["nameUpper" := Str(Upper(name))]["initial" := Initial(name)],
                            Seen(Str(Upper(name))), Seen(Str(name)))
  {
    var up := Str(Upper(name));
    ChainedFirstSweep(state);
    var s1 := state["nameUpper" := up];
    assert SetNameUpper(Str(name), Str(name), state) == s1;
    ChainedUpperSweep(s1, Seen(Undefined));
    assert Upper(name)[..1] == [UpperChar(name[0])];
    var s2 := s1["initial" := Initial(name)];
    assert SetInitial(up, up, s1) == s2;
    assert NameUpper(s2) == up;
    ChainedQuietSweep(s2, Seen(Str(name)));
    ThreeSweepDigest(Chained(None, state, Unset, Unset));
  }

  /** A later chained `$digest` after `name` was set to a new non-empty
      string: the second watcher fires, then the first one, then a quiet
      sweep ends the call. */
  lemma ChainedRenameDigest(ld: Option<nat>, state: State, oldName: string, name: string)
    requires name != [] && Name(state) == Str(name)
    requires NameUpper(state) == Str(Upper(oldName))
    requires Upper(name) != Upper(oldName)
    ensures var d := DigestRun(Chained(ld, state, Seen(Str(Upper(oldName))), Seen(Str(oldName))));
      && d.outcome == Settled && d.sweeps == 3
      && d.scope == Chained(Some(0), state["nameUpper" := Str(Upper(name))]["initial" := Initial(name)],
                            Seen(Str(Upper(name))), Seen(Str(name)))
  {
    var up0 := Str(Upper(oldName));
    var up := Str(Upper(name));
    var sc := Chained(None, state, Seen(up0), Seen(Str(oldName)));
    assert Chained(ld, state, Seen(up0), Seen(Str(oldName))).(lastDirtyWatch := None) == sc;
    AreEqualReflexive(up0, false);
    ChainedNameSweep(None, state, Seen(up0), Seen(Str(oldName)));
    var s1 := state["nameUpper" := up];
    assert SetNameUpper(Str(name), Str(name), state) == s1;
    ChainedUpperSweep(s1, Seen(up0));
    assert Upper(name)[..1] == [UpperChar(name[0])];
    var s2 := s1["initial" := Initial(name)];
    assert SetInitial(up, up, s1) == s2;
    assert NameUpper(s2) == up;
    ChainedQuietSweep(s2, Seen(Str(name)));
    ThreeSweepDigest(sc);
  }

  /** Triggers chained watchers in the same digest: `initial` is derived
      from `nameUpper`, which the later watcher derives from `name`. One
      `$digest` sets `initial` to the first letter of the upper-cased name
      and a dot, in three sweeps; after `name` is set to another non-empty
      string, the next `$digest` updates `initial` the same way. */
  lemma ChainedScenario(state: State, name: string, rename: string)
    requires name != [] && rename != []
    requires NameUpper(state) == Undefined
    requires Upper(rename) != Upper(name)
    ensures var sc := Watch(Watch(NewScope(state["name" := Str(name)]), NameUpper, SetInitial, false), Name, SetNameUpper, false);
      var d1 := DigestRun(sc);
      var d2 := DigestRun(d1.scope.(state := d1.scope.state["name" := Str(rename)]));
      && d1.outcome == Settled && d1.sweeps == 3 && Get(d1.scope.state, "initial") == Initial(name)
      && d2.outcome == Settled && d2.sweeps == 3 && Get(d2.scope.state, "initial") == Initial(rename)
  {
    var s0 := state["name" := Str(name)];
    var sc := Watch(Watch(NewScope(s0), NameUpper, SetInitial, false), Name, SetNameUpper, false);
    assert sc == Chained(None, s0, Unset, Unset);
    ChainedFirstDigest(s0, name);
    var d1 := DigestRun(sc);
    var t0 := d1.scope.state["name" := Str(rename)];
    assert NameUpper(t0) == Str(Upper(name));
    assert d1.scope.(state := t0) == Chained(Some(0), t0, Seen(Str(Upper(name))), Seen(Str(name)));
    ChainedRenameDigest(Some(0), t0, name, rename);
  }

  function CounterA(s: State): Value { Get(s, "counterA") }
  function CounterB(s: State): Value { Get(s, "counterB") }
  function BumpA(newValue: Value, oldValue: Value, s: State): State { Increment(s, "counterA") }
  function BumpB(newValue: Value, oldValue: Value, s: State): State { Increment(s, "counterB") }

  /** Two watchers, each bumping the counter the other one watches. */
  function PingPong(lastDirtyWatch: Option<nat>, state: State, lastA: Last, lastB: Last): Scope
  {
    Scope([Watcher(CounterA, BumpB, false, lastA), Watcher(CounterB, BumpA, false, lastB)], lastDirtyWatch, state)
  }

  /** Where the pair stands between sweeps: both counters are numbers, and
      either neither watcher has run yet, or the first watcher is one step
      behind its counter while the second has caught up with its own. */
  predicate Racing(state: State, lastA: Last, lastB: Last)
  {
    && Get(state, "counterA").Num? && Get(state, "counterB").Num?
    && ((lastA.Unset? && lastB.Unset?) ||
        (lastA == Seen(Num(Get(state, "counterA").n - 1)) && lastB == Seen(Get(state, "counterB"))))
  }

  /** One sweep over the racing pair runs both listeners and leaves the pair
      racing, one step further on. */
  lemma RacingSweep(ld: Option<nat>, state: State, lastA: Last, lastB: Last)
    requires Racing(state, lastA, lastB)
    requires SafeCount(state, "counterA", 1) && SafeCount(state, "counterB", 1)
    ensures Sweep(PingPong(ld, state, lastA, lastB)).dirty
    ensures Sweep(PingPong(ld, state, lastA, lastB)).scope ==
      PingPong(Some(1), Increment(Increment(state, "counterB"), "counterA"),
               Seen(Get(state, "counterA")), Seen(Num(Get(state, "counterB").n + 1)))
    ensures Racing(Increment(Increment(state, "counterB"), "counterA"),
                   Seen(Get(state, "counterA")), Seen(Num(Get(state, "counterB").n + 1)))
  {
    var sc := PingPong(ld, state, lastA, lastB);
    var a := Get(state, "counterA");
    var b := Get(state, "counterB");
    assert Changed(a, lastA, false);
    var sc1 := AfterFire(sc, 0, a);
    assert sc1.state == Increment(state, "counterB");
    assert Get(sc1.state, "counterB") == Num(b.n + 1);
    assert Changed(Num(b.n + 1), lastB, false);
    var sc2 := AfterFire(sc1, 1, Num(b.n + 1));
    var r2 := SweepFrom(sc2, 2, true, true);
    assert r2 == SweepResult(sc2, true, [], 2, false);
    var r1 := SweepFrom(sc1, 1, true, true);
    assert sc1.watchers[1].watchExpression(sc1.state) == Num(b.n + 1);
    assert r1 == r2.(fired := [FireAt(sc1, 1, Num(b.n + 1))]);
    assert sc.watchers[0].watchExpression(sc.state) == a;
    assert Sweep(sc) == r1.(fired := [FireAt(sc, 0, a)] + r1.fired);
    assert sc2 == PingPong(Some(1), Increment(Increment(state, "counterB"), "counterA"), Seen(a), Seen(Num(b.n + 1)));
  }

  /** The racing pair is dirty on every sweep, for as many sweeps as the
      counters stay within the safe integers. */
  lemma {:induction false} RacingStaysDirty(ld: Option<nat>, state: State, lastA: Last, lastB: Last, k: nat)
    requires Racing(state, lastA, lastB)
    requires SafeCount(state, "counterA", k) && SafeCount(state, "counterB", k)
    ensures DirtyRun(PingPong(ld, state, lastA, lastB), k)
    decreases k
  {
    if k > 0 {
      RacingSweep(ld, state, lastA, lastB);
      RacingStaysDirty(Some(1), Increment(Increment(state, "counterB"), "counterA"),
                       Seen(Get(state, "counterA")), Seen(Num(Get(state, "counterB").n + 1)), k - 1);
    }
  }

  /** Giving up after 10 iterations: two watchers registered on a fresh scope
      with numeric counters, each incrementing what the other watches, make
      `$digest` throw after its eleventh sweep. */
  lemma MutualIncrementThrows(a: int, b: int)
    requires -MaxSafeInteger <= a && a + MaxSweeps <= MaxSafeInteger
    requires -MaxSafeInteger <= b && b + MaxSweeps <= MaxSafeInteger
    ensures var sc := Watch(Watch(NewScope(map["counterA" := Num(a), "counterB" := Num(b)]), CounterA, BumpB, false),
                            CounterB, BumpA, false);
      DigestRun(sc).outcome == IterationsExceeded && DigestRun(sc).sweeps == MaxSweeps
  {
    var state := map["counterA" := Num(a), "counterB" := Num(b)];
    var sc := Watch(Watch(NewScope(state), CounterA, BumpB, false), CounterB, BumpA, false);
    assert sc.(lastDirtyWatch := None) == PingPong(None, state, Unset, Unset);
    RacingStaysDirty(None, state, Unset, Unset, MaxSweeps);
    DigestThrowsIffElevenDirtySweeps(sc);
  }
}

=== FILE: scope.dfy ===
/** The `Scope` container: its watcher list, the `$$lastDirtyWatch` marker,
    registration with `$watch`, and one dirty-checking sweep `$$digestOnce`.

    The scope's user fields are an explicit `State`; a watch expression is a
    pure function of it and a listener returns the state it leaves behind. */
module Scopes {
  import opened Values

  datatype Option<+T> = None | Some(value: T)

  /** The user-defined fields of a scope; a missing field reads as `undefined`. */
  type State = map<string, Value>

  function Get(s: State, field: string): Value
  {
    if field in s then s[field] else Undefined
  }

  type Listener = (Value, Value, State) -> State

  /** The baseline a watcher compares against. `Unset` is the `uuid` sentinel
      that a fresh watcher starts with; it is distinct from every `Value`,
      `Undefined` included. */
  datatype Last = Unset | Seen(value: Value)

  datatype Watcher = Watcher(
    watchExpression: State -> Value,
    listener: Listener,
    equality: bool,
    last: Last)

  /** `$$lastDirtyWatch` is held as an index into `watchers`; watchers are
      never removed, so an index names one watcher for the scope's lifetime. */
  datatype Scope = Scope(watchers: seq<Watcher>, lastDirtyWatch: Option<nat>, state: State)

  /** One listener invocation during a sweep: which watcher, the
      `(newValue, oldValue)` pair it was given, the state its watch
      expression read and its listener was given, and the state the listener
      left behind. */
  datatype Fire = Fire(watcher: nat, newValue: Value, oldValue: Value, state: State, result: State)

  /** What one sweep leaves behind. `visited` counts the watchers whose watch
      expression was evaluated; `shortCircuited` says the sweep stopped at
      the last dirty watcher. */
  datatype SweepResult = SweepResult(
    scope: Scope,
    dirty: bool,
    fired: seq<Fire>,
    visited: nat,
    shortCircuited: bool)

  /** The scope the constructor builds around the given user fields. */
  function NewScope(state: State): (r: Scope)
    ensures r.watchers == [] && r.lastDirtyWatch == None && r.state == state
  {
    Scope([], None, state)
  }

  /** `$watch`: append one watcher whose baseline is the sentinel and forget
      the last dirty watcher. */
  function Watch(sc: Scope, watchExpression: State -> Value, listener: Listener, equality: bool): (r: Scope)
    ensures |r.watchers| == |sc.watchers| + 1
    ensures r.watchers[..|sc.watchers|] == sc.watchers
    ensures r.watchers[|sc.watchers|] == Watcher(watchExpression, listener, equality, Unset)
    ensures r.lastDirtyWatch == None
    ensures r.state == sc.state
  {
    sc.(watchers := sc.watchers + [Watcher(watchExpression, listener, equality, Unset)],
        lastDirtyWatch := None)
  }

  /** `$watch(watchExpression)` with the defaults: a listener that does nothing
      and reference equality. */
  function WatchWithDefaults(sc: Scope, watchExpression: State -> Value): (r: Scope)
    ensures |r.watchers| == |sc.watchers| + 1
    ensures r.watchers[..|sc.watchers|] == sc.watchers
    ensures r.watchers[|sc.watchers|].watchExpression == watchExpression
    ensures !r.watchers[|sc.watchers|].equality && r.watchers[|sc.watchers|].last == Unset
    ensures forall n, o, s :: r.watchers[|sc.watchers|].listener(n, o, s) == s
    ensures r.lastDirtyWatch == None && r.state == sc.state
  {
    Watch(sc, watchExpression, (n: Value, o: Value, s: State) => s, false)
  }

  /** Whether a freshly computed value differs from a watcher's baseline under
      its equality policy. The sentinel differs from every value. */
  predicate Changed(newValue: Value, last: Last, equality: bool)
  {
    last.Unset? || !AreEqual(newValue, last.value, equality)
  }

  /** A watcher is clean in a state when its baseline already agrees with
      what its watch expression returns there. */
  predicate Clean(w: Watcher, s: State)
  {
    !Changed(w.watchExpression(s), w.last, w.equality)
  }

  predicate AllClean(sc: Scope)
  {
    forall j :: 0 <= j < |sc.watchers| ==> Clean(sc.watchers[j], sc.state)
  }

  /** Two watcher lists hold the same registrations in the same order; only
      the baselines may differ. */
  ghost predicate SameRegistrations(ws: seq<Watcher>, vs: seq<Watcher>)
  {
    |ws| == |vs| &&
    forall j :: 0 <= j < |ws| ==>
      ws[j].watchExpression == vs[j].watchExpression &&
      ws[j].listener == vs[j].listener &&
      ws[j].equality == vs[j].equality
  }

  /** Whether watcher `j` fired in `fired`. */
  predicate FiredAt(fired: seq<Fire>, j: nat)
  {
    exists k :: 0 <= k < |fired| && fired[k].watcher == j
  }

  /** The `oldValue` a listener is given: the baseline, or the new value
      itself when the baseline is still the sentinel. */
  function OldValueFor(newValue: Value, last: Last): Value
  {
    if last.Unset? then newValue else last.value
  }

  /** The scope after watcher `i` is found dirty with `newValue`: it becomes
      the last dirty watcher, its baseline becomes `newValue`, and its
      listener runs. */
  function AfterFire(sc: Scope, i: nat, newValue: Value): (r: Scope)
    requires i < |sc.watchers|
  {
    var w := sc.watchers[i];
    Scope(
      sc.watchers[i := w.(last := Seen(newValue))],
      Some(i),
      w.listener(newValue, OldValueFor(newValue, w.last), sc.state))
  }

  /** The record of watcher `i` being found dirty with `newValue`. */
  function FireAt(sc: Scope, i: nat, newValue: Value): Fire
    requires i < |sc.watchers|
  {
    Fire(i, newValue, OldValueFor(newValue, sc.watchers[i].last), sc.state, AfterFire(sc, i, newValue).state)
  }

  /** The part of `$$digestOnce` from watcher `i` on. `dirty` is the sweep's
      flag so far. With `shortCircuit` off this is the exhaustive sweep that
      the optimisation must agree with. */
  function SweepFrom(sc: Scope, i: nat, dirty: bool, shortCircuit: bool): (r: SweepResult)
    requires i <= |sc.watchers|
    ensures |r.scope.watchers| == |sc.watchers|
    ensures i <= r.visited <= |sc.watchers|
    decreases |sc.watchers| - i
  {
    if i == |sc.watchers| then SweepResult(sc, dirty, [], i, false)
    else
      var w := sc.watchers[i];
      var newValue := w.watchExpression(sc.state);
      if Changed(newValue, w.last, w.equality) then
        var rest := SweepFrom(AfterFire(sc, i, newValue), i + 1, true, shortCircuit);
        rest.(fired := [FireAt(sc, i, newValue)] + rest.fired)
      else if shortCircuit && sc.lastDirtyWatch == Some(i) then
        SweepResult(sc, dirty, [], i + 1, true)
      else
        SweepFrom(sc, i + 1, dirty, shortCircuit)
  }

  /** A sweep rewrites baselines only: the registrations, their order and
      their number are what they were. */
  lemma {:induction false} SweepFromKeepsRegistrations(sc: Scope, i: nat, dirty: bool, shortCircuit: bool)
    requires i <= |sc.watchers|
    ensures SameRegistrations(sc.watchers, SweepFrom(sc, i, dirty, shortCircuit).scope.watchers)
    decreases |sc.watchers| - i
  {
    if i < |sc.watchers| {
      var w := sc.watchers[i];
      var newValue := w.watchExpression(sc.state);
      if Changed(newValue, w.last, w.equality) {
        SweepFromKeepsRegistrations(AfterFire(sc, i, newValue), i + 1, true, shortCircuit);
      } else if !(shortCircuit && sc.lastDirtyWatch == Some(i)) {
        SweepFromKeepsRegistrations(sc, i + 1, dirty, shortCircuit);
      }
    }
  }

  /** The sweep's flag says whether any listener ran, and `$$lastDirtyWatch`
      ends up naming the watcher whose listener ran last. */
  predicate DirtyFlagAgrees(sc: Scope, dirty: bool, r: SweepResult)
  {
    && (r.dirty <==> dirty || r.fired != [])
    && r.scope.lastDirtyWatch ==
         (if r.fired == [] then sc.lastDirtyWatch else Some(r.fired[|r.fired| - 1].watcher))
  }

  lemma {:induction false} SweepFromDirtyFlag(sc: Scope, i: nat, dirty: bool, shortCircuit: bool)
    requires i <= |sc.watchers|
    ensures DirtyFlagAgrees(sc, dirty, SweepFrom(sc, i, dirty, shortCircuit))
    decreases |sc.watchers| - i
  {
    if i < |sc.watchers| {
      var w := sc.watchers[i];
      var newValue := w.watchExpression(sc.state);
      if Changed(newValue, w.last, w.equality) {
        SweepFromDirtyFlag(AfterFire(sc, i, newValue), i + 1, true, shortCircuit);
      } else if !(shortCircuit && sc.lastDirtyWatch == Some(i)) {
        SweepFromDirtyFlag(sc, i + 1, dirty, shortCircuit);
      }
    }
  }

  /** Listeners run in registration order, each at most once, and only for
      watchers from `i` on that the sweep reached. */
  predicate FiresInOrder(r: SweepResult, i: nat)
  {
    && (forall k :: 0 <= k < |r.fired| ==> i <= r.fired[k].watcher < r.visited)
    && (forall k, l :: 0 <= k < l < |r.fired| ==> r.fired[k].watcher < r.fired[l].watcher)
  }

  lemma {:induction false} SweepFromFireOrder(sc: Scope, i: nat, dirty: bool, shortCircuit: bool)
    requires i <= |sc.watchers|
    ensures FiresInOrder(SweepFrom(sc, i, dirty, shortCircuit), i)
    decreases |sc.watchers| - i
  {
    if i < |sc.watchers| {
      var w := sc.watchers[i];
      var newValue := w.watchExpression(sc.state);
      if Changed(newValue, w.last, w.equality) {
        var rest := SweepFrom(AfterFire(sc, i, newValue), i + 1, true, shortCircuit);
        SweepFromFireOrder(AfterFire(sc, i, newValue), i + 1, true, shortCircuit);
        var r := SweepFrom(sc, i, dirty, shortCircuit);
        assert r.fired == [FireAt(sc, i, newValue)] + rest.fired;
        forall k | 1 <= k < |r.fired| ensures r.fired[k] == rest.fired[k - 1] { }
      } else if !(shortCircuit && sc.lastDirtyWatch == Some(i)) {
        SweepFromFireOrder(sc, i + 1, dirty, shortCircuit);
      }
    }
  }

  /** Short-circuit soundness: the sweep stops early only at the last dirty
      watcher, found clean, with no listener run earlier in the same sweep;
      so a stopped sweep reports "not dirty" and leaves the scope as it was.
      A sweep that does not stop reaches every watcher. */
  ghost predicate StopsOnlyWhenQuiet(sc: Scope, i: nat, shortCircuit: bool, r: SweepResult)
  {
    && (!r.shortCircuited ==> r.visited == |sc.watchers|)
    && (r.shortCircuited ==>
          && shortCircuit && r.fired == [] && !r.dirty && r.scope == sc
          && i < r.visited <= |sc.watchers| && sc.lastDirtyWatch == Some(r.visited - 1)
          && Clean(sc.watchers[r.visited - 1], sc.state))
  }

  lemma {:induction false} SweepFromStopsOnlyWhenQuiet(sc: Scope, i: nat, dirty: bool, shortCircuit: bool)
    requires i <= |sc.watchers|
    requires dirty ==> sc.lastDirtyWatch.Some? && sc.lastDirtyWatch.value < i
    ensures StopsOnlyWhenQuiet(sc, i, shortCircuit, SweepFrom(sc, i, dirty, shortCircuit))
    decreases |sc.watchers| - i
  {
    if i < |sc.watchers| {
      var w := sc.watchers[i];
      var newValue := w.watchExpression(sc.state);
      if Changed(newValue, w.last, w.equality) {
        SweepFromStopsOnlyWhenQuiet(AfterFire(sc, i, newValue), i + 1, true, shortCircuit);
      } else if !(shortCircuit && sc.lastDirtyWatch == Some(i)) {
        SweepFromStopsOnlyWhenQuiet(sc, i + 1, dirty, shortCircuit);
      }
    }
  }

  /** A watcher whose listener did not run keeps its baseline. */
  predicate KeepsUnfired(sc: Scope, r: SweepResult)
    requires |r.scope.watchers| == |sc.watchers|
  {
    forall j :: 0 <= j < |sc.watchers| && !FiredAt(r.fired, j) ==>
      r.scope.watchers[j].last == sc.watchers[j].last
  }

  lemma {:induction false} SweepFromKeepsUnfired(sc: Scope, i: nat, dirty: bool, shortCircuit: bool)
    requires i <= |sc.watchers|
    ensures KeepsUnfired(sc, SweepFrom(sc, i, dirty, shortCircuit))
    decreases |sc.watchers| - i
  {
    if i < |sc.watchers| {
      var w := sc.watchers[i];
      var newValue := w.watchExpression(sc.state);
      if Changed(newValue, w.last, w.equality) {
        var next := AfterFire(sc, i, newValue);
        var rest := SweepFrom(next, i + 1, true, shortCircuit);
        var r := SweepFrom(sc, i, dirty, shortCircuit);
        SweepFromKeepsUnfired(next, i + 1, true, shortCircuit);
        assert r.fired == [FireAt(sc, i, newValue)] + rest.fired;
        forall j | 0 <= j < |sc.watchers| && !FiredAt(r.fired, j)
          ensures r.scope.watchers[j].last == sc.watchers[j].last
        {
          assert j != i by {
            assert r.fired[0].watcher == i;
          }
          forall k | 0 <= k < |rest.fired| ensures rest.fired[k].watcher != j {
            assert rest.fired[k] == r.fired[k + 1];
          }
        }
      } else if !(shortCircuit && sc.lastDirtyWatch == Some(i)) {
        SweepFromKeepsUnfired(sc, i + 1, dirty, shortCircuit);
      }
    }
  }

  /** First-call semantics and baseline update: every listener call is given
      what its watch expression returned in the state it was evaluated in;
      that value is a genuine change of the watcher's baseline at the start
      of the sweep; the listener is told that baseline as the old value, or
      the new value itself when the baseline was the sentinel; and the
      watcher ends up holding the new value. */
  predicate FiresRecordChanges(sc: Scope, r: SweepResult)
    requires |r.scope.watchers| == |sc.watchers|
  {
    forall k :: 0 <= k < |r.fired| ==>
      && r.fired[k].watcher < |sc.watchers|
      && r.fired[k].newValue == sc.watchers[r.fired[k].watcher].watchExpression(r.fired[k].state)
      && Changed(r.fired[k].newValue, sc.watchers[r.fired[k].watcher].last, sc.watchers[r.fired[k].watcher].equality)
      && r.fired[k].oldValue == OldValueFor(r.fired[k].newValue, sc.watchers[r.fired[k].watcher].last)
      && r.scope.watchers[r.fired[k].watcher].last == Seen(r.fired[k].newValue)
  }

  lemma {:induction false} SweepFromRecordsChanges(sc: Scope, i: nat, dirty: bool, shortCircuit: bool)
    requires i <= |sc.watchers|
    ensures FiresRecordChanges(sc, SweepFrom(sc, i, dirty, shortCircuit))
    decreases |sc.watchers| - i
  {
    if i < |sc.watchers| {
      var w := sc.watchers[i];
      var newValue := w.watchExpression(sc.state);
      if Changed(newValue, w.last, w.equality) {
        var next := AfterFire(sc, i, newValue);
        var rest := SweepFrom(next, i + 1, true, shortCircuit);
        SweepFromRecordsChanges(next, i + 1, true, shortCircuit);
        SweepFromFireOrder(next, i + 1, true, shortCircuit);
        SweepFromKeepsUnfired(next, i + 1, true, shortCircuit);
        RecordsChangesAfterCall(sc, i, newValue, SweepFrom(sc, i, dirty, shortCircuit), rest);
      } else if !(shortCircuit && sc.lastDirtyWatch == Some(i)) {
        SweepFromRecordsChanges(sc, i + 1, dirty, shortCircuit);
      }
    }
  }

  /** The step of `SweepFromRecordsChanges` for a watcher that fired: the
      later calls are about other watchers, whose registrations and
      baselines the call left alone. */
  lemma RecordsChangesAfterCall(sc: Scope, i: nat, newValue: Value, r: SweepResult, rest: SweepResult)
    requires i < |sc.watchers| && newValue == sc.watchers[i].watchExpression(sc.state)
    requires Changed(newValue, sc.watchers[i].last, sc.watchers[i].equality)
    requires r.fired == [FireAt(sc, i, newValue)] + rest.fired && r.scope == rest.scope
    requires |rest.scope.watchers| == |sc.watchers| && rest.visited <= |sc.watchers|
    requires FiresRecordChanges(AfterFire(sc, i, newValue), rest)
    requires FiresInOrder(rest, i + 1)
    requires KeepsUnfired(AfterFire(sc, i, newValue), rest)
    ensures FiresRecordChanges(sc, r)
  {
    var next := AfterFire(sc, i, newValue);
    forall k | 0 <= k < |r.fired|
      ensures r.fired[k].watcher < |sc.watchers|
      ensures r.fired[k].newValue == sc.watchers[r.fired[k].watcher].watchExpression(r.fired[k].state)
      ensures Changed(r.fired[k].newValue, sc.watchers[r.fired[k].watcher].last, sc.watchers[r.fired[k].watcher].equality)
      ensures r.fired[k].oldValue == OldValueFor(r.fired[k].newValue, sc.watchers[r.fired[k].watcher].last)
      ensures r.scope.watchers[r.fired[k].watcher].last == Seen(r.fired[k].newValue)
    {
      var f := r.fired[k];
      if k == 0 {
        assert f == FireAt(sc, i, newValue);
        assert !FiredAt(rest.fired, i);
      } else {
        assert f == rest.fired[k - 1];
        assert f.watcher != i;
        assert next.watchers[f.watcher] == sc.watchers[f.watcher];
      }
    }
  }

  /** Each call records what its watcher's listener returned for it. */
  predicate CallsRecordResults(sc: Scope, r: SweepResult)
  {
    forall k :: 0 <= k < |r.fired| && r.fired[k].watcher < |sc.watchers| ==>
      r.fired[k].result ==
        sc.watchers[r.fired[k].watcher].listener(r.fired[k].newValue, r.fired[k].oldValue, r.fired[k].state)
  }

  lemma {:induction false} SweepFromRecordsResults(sc: Scope, i: nat, dirty: bool, shortCircuit: bool)
    requires i <= |sc.watchers|
    ensures CallsRecordResults(sc, SweepFrom(sc, i, dirty, shortCircuit))
    decreases |sc.watchers| - i
  {
    if i < |sc.watchers| {
      var w := sc.watchers[i];
      var newValue := w.watchExpression(sc.state);
      if Changed(newValue, w.last, w.equality) {
        var next := AfterFire(sc, i, newValue);
        var rest := SweepFrom(next, i + 1, true, shortCircuit);
        var r := SweepFrom(sc, i, dirty, shortCircuit);
        SweepFromRecordsResults(next, i + 1, true, shortCircuit);
        assert r.fired == [FireAt(sc, i, newValue)] + rest.fired;
        forall k | 0 <= k < |r.fired| && r.fired[k].watcher < |sc.watchers|
          ensures r.fired[k].result ==
            sc.watchers[r.fired[k].watcher].listener(r.fired[k].newValue, r.fired[k].oldValue, r.fired[k].state)
        {
          if k > 0 {
            var f := r.fired[k];
            assert f == rest.fired[k - 1];
            assert next.watchers[f.watcher].listener == sc.watchers[f.watcher].listener;
          }
        }
      } else if !(shortCircuit && sc.lastDirtyWatch == Some(i)) {
        SweepFromRecordsResults(sc, i + 1, dirty, shortCircuit);
      }
    }
  }

  /** Listeners run one after another on the scope: the first call sees the
      state the sweep started from, each later call sees what the previous
      listener left, and the sweep ends in the state the last listener
      left. */
  predicate ThreadsState(sc: Scope, r: SweepResult)
  {
    && (r.fired != [] ==> r.fired[0].state == sc.state)
    && (forall k :: 0 < k < |r.fired| ==> r.fired[k].state == r.fired[k - 1].result)
    && r.scope.state == (if r.fired == [] then sc.state else r.fired[|r.fired| - 1].result)
  }

  lemma {:induction false} SweepFromThreadsState(sc: Scope, i: nat, dirty: bool, shortCircuit: bool)
    requires i <= |sc.watchers|
    ensures ThreadsState(sc, SweepFrom(sc, i, dirty, shortCircuit))
    decreases |sc.watchers| - i
  {
    if i < |sc.watchers| {
      var w := sc.watchers[i];
      var newValue := w.watchExpression(sc.state);
      if Changed(newValue, w.last, w.equality) {
        var next := AfterFire(sc, i, newValue);
        var rest := SweepFrom(next, i + 1, true, shortCircuit);
        var r := SweepFrom(sc, i, dirty, shortCircuit);
        SweepFromThreadsState(next, i + 1, true, shortCircuit);
        assert r.fired == [FireAt(sc, i, newValue)] + rest.fired;
        assert r.scope == rest.scope;
        forall k | 0 < k < |r.fired| ensures r.fired[k].state == r.fired[k - 1].result {
          assert r.fired[k] == rest.fired[k - 1];
          if k > 1 {
            assert r.fired[k - 1] == rest.fired[k - 2];
          }
        }
        if rest.fired != [] {
          assert r.fired[|r.fired| - 1] == rest.fired[|rest.fired| - 1];
        }
      } else if !(shortCircuit && sc.lastDirtyWatch == Some(i)) {
        SweepFromThreadsState(sc, i + 1, dirty, shortCircuit);
      }
    }
  }

  /** The state watcher `j` is evaluated in during a sweep that started in
      state `s` and made the calls `fired` (in watcher order): what the last
      listener before `j` left, or `s` when none ran before it. */
  function StateBefore(s: State, fired: seq<Fire>, j: nat): State
    decreases |fired|
  {
    if fired == [] || fired[0].watcher >= j then s else StateBefore(fired[0].result, fired[1..], j)
  }

  /** Every watcher the sweep reached and did not fire was clean at the
      moment it was evaluated: no change goes unreported. */
  predicate ChangesAllFire(sc: Scope, i: nat, r: SweepResult)
  {
    forall j :: i <= j < r.visited && j < |sc.watchers| && !FiredAt(r.fired, j) ==>
      Clean(sc.watchers[j], StateBefore(sc.state, r.fired, j))
  }

  lemma {:induction false} SweepFromFiresEveryChange(sc: Scope, i: nat, dirty: bool, shortCircuit: bool)
    requires i <= |sc.watchers|
    ensures ChangesAllFire(sc, i, SweepFrom(sc, i, dirty, shortCircuit))
    decreases |sc.watchers| - i
  {
    if i < |sc.watchers| {
      var w := sc.watchers[i];
      var newValue := w.watchExpression(sc.state);
      var r := SweepFrom(sc, i, dirty, shortCircuit);
      if Changed(newValue, w.last, w.equality) {
        var next := AfterFire(sc, i, newValue);
        SweepFromFiresEveryChange(next, i + 1, true, shortCircuit);
        ChangesAllFireAfterCall(sc, i, newValue, r, SweepFrom(next, i + 1, true, shortCircuit));
      } else if !(shortCircuit && sc.lastDirtyWatch == Some(i)) {
        SweepFromFiresEveryChange(sc, i + 1, dirty, shortCircuit);
        SweepFromFireOrder(sc, i + 1, dirty, shortCircuit);
        if r.fired != [] {
          assert r.fired[0].watcher >= i + 1;
        }
        assert StateBefore(sc.state, r.fired, i) == sc.state;
      }
    }
  }

  /** The step of `SweepFromFiresEveryChange` for a watcher that fired:
      the remaining watchers see the state its listener left. */
  lemma ChangesAllFireAfterCall(sc: Scope, i: nat, newValue: Value, r: SweepResult, rest: SweepResult)
    requires i < |sc.watchers|
    requires r.visited == rest.visited && r.fired == [FireAt(sc, i, newValue)] + rest.fired
    requires ChangesAllFire(AfterFire(sc, i, newValue), i + 1, rest)
    ensures ChangesAllFire(sc, i, r)
  {
    var next := AfterFire(sc, i, newValue);
    forall j | i <= j < r.visited && j < |sc.watchers| && !FiredAt(r.fired, j)
      ensures Clean(sc.watchers[j], StateBefore(sc.state, r.fired, j))
    {
      assert r.fired[0].watcher == i;
      forall k | 0 <= k < |rest.fired| ensures rest.fired[k].watcher != j {
        assert rest.fired[k] == r.fired[k + 1];
      }
      assert r.fired[1..] == rest.fired;
      assert next.watchers[j] == sc.watchers[j];
    }
  }

  /** A watcher still holding the sentinel fires whenever the sweep reaches
      it, whatever its watch expression returns, `undefined` included. */
  predicate FreshWatchersFire(sc: Scope, i: nat, r: SweepResult)
  {
    forall j :: i <= j < r.visited && j < |sc.watchers| && sc.watchers[j].last.Unset? ==> FiredAt(r.fired, j)
  }

  lemma {:induction false} SweepFromFiresFresh(sc: Scope, i: nat, dirty: bool, shortCircuit: bool)
    requires i <= |sc.watchers|
    ensures FreshWatchersFire(sc, i, SweepFrom(sc, i, dirty, shortCircuit))
    decreases |sc.watchers| - i
  {
    if i < |sc.watchers| {
      var w := sc.watchers[i];
      var newValue := w.watchExpression(sc.state);
      if Changed(newValue, w.last, w.equality) {
        var next := AfterFire(sc, i, newValue);
        var rest := SweepFrom(next, i + 1, true, shortCircuit);
        var r := SweepFrom(sc, i, dirty, shortCircuit);
        SweepFromFiresFresh(next, i + 1, true, shortCircuit);
        assert r.fired == [FireAt(sc, i, newValue)] + rest.fired;
        forall j | i <= j < r.visited && j < |sc.watchers| && sc.watchers[j].last.Unset?
          ensures FiredAt(r.fired, j)
        {
          if j == i {
            assert r.fired[0].watcher == i;
          } else {
            assert next.watchers[j] == sc.watchers[j];
            var k :| 0 <= k < |rest.fired| && rest.fired[k].watcher == j;
            assert r.fired[k + 1] == rest.fired[k];
          }
        }
      } else if !(shortCircuit && sc.lastDirtyWatch == Some(i)) {
        SweepFromFiresFresh(sc, i + 1, dirty, shortCircuit);
      }
    }
  }

  /** A sweep that runs no listener changes nothing, and found every watcher
      it reached clean. */
  ghost predicate QuietSweep(sc: Scope, i: nat, r: SweepResult)
  {
    r.fired == [] ==>
      r.scope == sc && forall j :: i <= j < r.visited && j < |sc.watchers| ==> Clean(sc.watchers[j], sc.state)
  }

  lemma {:induction false} SweepFromQuiet(sc: Scope, i: nat, dirty: bool, shortCircuit: bool)
    requires i <= |sc.watchers|
    ensures QuietSweep(sc, i, SweepFrom(sc, i, dirty, shortCircuit))
    decreases |sc.watchers| - i
  {
    if i < |sc.watchers| {
      var w := sc.watchers[i];
      var newValue := w.watchExpression(sc.state);
      if !Changed(newValue, w.last, w.equality) && !(shortCircuit && sc.lastDirtyWatch == Some(i)) {
        SweepFromQuiet(sc, i + 1, dirty, shortCircuit);
      }
    }
  }

  /** Every watcher after index `m` is clean in the scope's state. */
  predicate CleanAfter(sc: Scope, m: nat)
  {
    forall j :: m < j < |sc.watchers| ==> Clean(sc.watchers[j], sc.state)
  }

  /** After the last listener of a sweep that ran to the end, every later
      watcher is clean in the state the sweep leaves behind. */
  predicate TailClean(r: SweepResult)
  {
    r.fired != [] && !r.shortCircuited ==> CleanAfter(r.scope, r.fired[|r.fired| - 1].watcher)
  }

  lemma {:induction false} SweepFromTailClean(sc: Scope, i: nat, dirty: bool, shortCircuit: bool)
    requires i <= |sc.watchers|
    ensures TailClean(SweepFrom(sc, i, dirty, shortCircuit))
    decreases |sc.watchers| - i
  {
    var r := SweepFrom(sc, i, dirty, shortCircuit);
    if i < |sc.watchers| {
      var w := sc.watchers[i];
      var newValue := w.watchExpression(sc.state);
      if Changed(newValue, w.last, w.equality) {
        var next := AfterFire(sc, i, newValue);
        var rest := SweepFrom(next, i + 1, true, shortCircuit);
        assert r.fired == [FireAt(sc, i, newValue)] + rest.fired;
        if rest.fired == [] {
          SweepFromQuiet(next, i + 1, true, shortCircuit);
          SweepFromStopsOnlyWhenQuiet(next, i + 1, true, shortCircuit);
        } else {
          SweepFromTailClean(next, i + 1, true, shortCircuit);
          assert r.fired[|r.fired| - 1] == rest.fired[|rest.fired| - 1];
        }
      } else if !(shortCircuit && sc.lastDirtyWatch == Some(i)) {
        SweepFromTailClean(sc, i + 1, dirty, shortCircuit);
      }
    }
  }

  /** From watcher `i` on, over watchers that are all clean, a sweep runs no
      listener and changes nothing. */
  lemma {:induction false} SweepFromOverCleanWatchers(sc: Scope, i: nat, dirty: bool, shortCircuit: bool)
    requires i <= |sc.watchers|
    requires forall j :: i <= j < |sc.watchers| ==> Clean(sc.watchers[j], sc.state)
    ensures var r := SweepFrom(sc, i, dirty, shortCircuit);
      r.fired == [] && r.scope == sc && r.dirty == dirty
    decreases |sc.watchers| - i
  {
    if i < |sc.watchers| && !(shortCircuit && sc.lastDirtyWatch == Some(i)) {
      SweepFromOverCleanWatchers(sc, i + 1, dirty, shortCircuit);
    }
  }

  /** What makes the short-circuit safe: every watcher after the last dirty
      one is already clean. */
  predicate ShortCircuitSafe(sc: Scope)
  {
    sc.lastDirtyWatch.Some? ==>
      sc.lastDirtyWatch.value < |sc.watchers| && CleanAfter(sc, sc.lastDirtyWatch.value)
  }

  /** Stopping at the clean last-dirty watcher loses nothing: when every
      watcher after it is clean, the short-circuited sweep and the exhaustive
      one run the same listeners and leave the same scope. */
  lemma {:induction false} ShortCircuitAgreesFrom(sc: Scope, i: nat, dirty: bool)
    requires i <= |sc.watchers|
    requires sc.lastDirtyWatch.Some? && sc.lastDirtyWatch.value >= i ==>
      sc.lastDirtyWatch.value < |sc.watchers| && CleanAfter(sc, sc.lastDirtyWatch.value)
    ensures var short := SweepFrom(sc, i, dirty, true);
      var full := SweepFrom(sc, i, dirty, false);
      short.scope == full.scope && short.dirty == full.dirty && short.fired == full.fired
    decreases |sc.watchers| - i
  {
    if i < |sc.watchers| {
      var w := sc.watchers[i];
      var newValue := w.watchExpression(sc.state);
      if Changed(newValue, w.last, w.equality) {
        ShortCircuitAgreesFrom(AfterFire(sc, i, newValue), i + 1, true);
      } else if sc.lastDirtyWatch == Some(i) {
        SweepFromOverCleanWatchers(sc, i + 1, dirty, false);
      } else {
        ShortCircuitAgreesFrom(sc, i + 1, dirty);
      }
    }
  }

  /** `$$digestOnce`: one sweep over all watchers, stopping early at a clean
      last-dirty watcher. It reports "dirty" exactly when some listener ran,
      and a sweep that runs none leaves the scope as it was. */
  function Sweep(sc: Scope): (r: SweepResult)
    ensures r.dirty <==> r.fired != []
    ensures r.fired == [] ==> r.scope == sc
  {
    SweepFromDirtyFlag(sc, 0, false, true);
    SweepFromQuiet(sc, 0, false, true);
    SweepFrom(sc, 0, false, true)
  }

  /** The same sweep without the short-circuit. */
  function ExhaustiveSweep(sc: Scope): SweepResult
  {
    SweepFrom(sc, 0, false, false)
  }

  lemma ShortCircuitSound(sc: Scope)
    requires ShortCircuitSafe(sc)
    ensures Sweep(sc).scope == ExhaustiveSweep(sc).scope
    ensures Sweep(sc).dirty == ExhaustiveSweep(sc).dirty
    ensures Sweep(sc).fired == ExhaustiveSweep(sc).fired
  {
    ShortCircuitAgreesFrom(sc, 0, false);
  }

  /** A sweep keeps the short-circuit safe for the next one. */
  lemma SweepKeepsShortCircuitSafe(sc: Scope)
    requires ShortCircuitSafe(sc)
    ensures ShortCircuitSafe(Sweep(sc).scope)
  {
    var r := Sweep(sc);
    SweepFromQuiet(sc, 0, false, true);
    SweepFromStopsOnlyWhenQuiet(sc, 0, false, true);
    SweepFromDirtyFlag(sc, 0, false, true);
    SweepFromFireOrder(sc, 0, false, true);
    SweepFromTailClean(sc, 0, false, true);
    if r.fired != [] {
      assert r.fired[|r.fired| - 1].watcher < |sc.watchers|;
    }
  }

  /** A sweep that reports "not dirty" leaves every watcher clean: the ones
      it reached were clean, and the ones after a short-circuit were clean
      already. */
  lemma CleanSweepLeavesAllClean(sc: Scope)
    requires ShortCircuitSafe(sc)
    ensures !Sweep(sc).dirty ==> Sweep(sc).scope == sc && AllClean(sc)
  {
    var r := Sweep(sc);
    SweepFromQuiet(sc, 0, false, true);
    SweepFromStopsOnlyWhenQuiet(sc, 0, false, true);
    SweepFromDirtyFlag(sc, 0, false, true);
  }

  /** Over a scope whose watchers are all clean, a sweep runs no listener and
      changes nothing. */
  lemma SweepOfAllCleanIsQuiet(sc: Scope)
    requires AllClean(sc)
    ensures Sweep(sc).fired == [] && !Sweep(sc).dirty && Sweep(sc).scope == sc
  {
    SweepFromOverCleanWatchers(sc, 0, false, true);
  }

  /** Watcher `j`, whose watch expression is `watchExpression`, had its
      listener called with what that expression returned in the state of the
      call, given as both new and old value, as on its first call. */
  predicate FirstCallAt(fired: seq<Fire>, j: nat, watchExpression: State -> Value)
  {
    exists k :: 0 <= k < |fired| && fired[k].watcher == j &&
      fired[k].newValue == watchExpression(fired[k].state) && fired[k].oldValue == fired[k].newValue
  }

  /** First call: a sweep that starts with no last dirty watcher reaches
      every watcher, so each one still holding the sentinel has its listener
      called, with the value it found passed as the old value too. */
  lemma SweepCallsFreshWatchers(sc: Scope)
    requires sc.lastDirtyWatch == None
    ensures forall j :: 0 <= j < |sc.watchers| && sc.watchers[j].last.Unset? ==>
      FirstCallAt(Sweep(sc).fired, j, sc.watchers[j].watchExpression)
  {
    var r := Sweep(sc);
    SweepFromStopsOnlyWhenQuiet(sc, 0, false, true);
    SweepFromFiresFresh(sc, 0, false, true);
    SweepFromRecordsChanges(sc, 0, false, true);
    forall j | 0 <= j < |sc.watchers| && sc.watchers[j].last.Unset?
      ensures FirstCallAt(r.fired, j, sc.watchers[j].watchExpression)
    {
      var k :| 0 <= k < |r.fired| && r.fired[k].watcher == j;
      assert r.fired[k].oldValue == r.fired[k].newValue;
    }
  }

  /** A run of clean watchers, none of them the last dirty one, is passed
      over without effect. */
  lemma {:induction false} SweepFromSkipsClean(sc: Scope, i: nat, m: nat, dirty: bool, shortCircuit: bool)
    requires i <= m <= |sc.watchers|
    requires forall j :: i <= j < m ==> Clean(sc.watchers[j], sc.state) && sc.lastDirtyWatch != Some(j)
    ensures SweepFrom(sc, i, dirty, shortCircuit) == SweepFrom(sc, m, dirty, shortCircuit)
    decreases m - i
  {
    if i < m {
      SweepFromSkipsClean(sc, i + 1, m, dirty, shortCircuit);
    }
  }

  /** The first sweep after `$watch` on a scope whose watchers are all clean
      runs the new watcher's listener and nothing else, once, with the value
      its expression returns in the scope's state as both new and old value;
      the new watcher becomes the last dirty one, with that value as its
      baseline. */
  lemma SweepAfterWatch(sc: Scope, watchExpression: State -> Value, listener: Listener, equality: bool)
    requires AllClean(sc)
    ensures var v := watchExpression(sc.state);
      var r := Sweep(Watch(sc, watchExpression, listener, equality));
      && r.fired == [Fire(|sc.watchers|, v, v, sc.state, listener(v, v, sc.state))]
      && r.dirty
      && r.scope == Scope(sc.watchers + [Watcher(watchExpression, listener, equality, Seen(v))],
                          Some(|sc.watchers|), listener(v, v, sc.state))
  {
    var n := |sc.watchers|;
    var v := watchExpression(sc.state);
    var registered := Watch(sc, watchExpression, listener, equality);
    forall j | 0 <= j < n ensures Clean(registered.watchers[j], registered.state) {
      assert registered.watchers[j] == sc.watchers[j];
    }
    SweepFromSkipsClean(registered, 0, n, false, true);
    var after := AfterFire(registered, n, v);
    assert after.watchers == sc.watchers + [Watcher(watchExpression, listener, equality, Seen(v))];
    assert SweepFrom(after, n + 1, true, true) == SweepResult(after, true, [], n + 1, false);
  }

  /** `$$digestOnce` as the loop the source runs. */
  method DigestOnce(sc: Scope) returns (r: SweepResult)
    ensures r == Sweep(sc)
    ensures r.dirty <==> r.fired != []
    ensures r.shortCircuited ==> !r.dirty && r.scope == sc
    ensures SameRegistrations(sc.watchers, r.scope.watchers)
  {
    SweepFromDirtyFlag(sc, 0, false, true);
    SweepFromStopsOnlyWhenQuiet(sc, 0, false, true);
    SweepFromKeepsRegistrations(sc, 0, false, true);
    var cur := sc;
    var dirty := false;
    var fired: seq<Fire> := [];
    var i := 0;
    while i < |cur.watchers|
      invariant i <= |cur.watchers| == |sc.watchers|
      invariant var rest := SweepFrom(cur, i, dirty, true);
        Sweep(sc) == rest.(fired := fired + rest.fired)
    {
      var w := cur.watchers[i];
      var newValue := w.watchExpression(cur.state);
      if Changed(newValue, w.last, w.equality) {
        var oldValue := OldValueFor(newValue, w.last);
        var rest := SweepFrom(AfterFire(cur, i, newValue), i + 1, true, true);
        var call := FireAt(cur, i, newValue);
        assert fired + ([call] + rest.fired) == (fired + [call]) + rest.fired;
        var given := cur.state;
        cur := cur.(lastDirtyWatch := Some(i));
        cur := cur.(watchers := cur.watchers[i := w.(last := Seen(newValue))]);
        cur := cur.(state := w.listener(newValue, oldValue, cur.state));
        fired := fired + [Fire(i, newValue, oldValue, given, cur.state)];
        dirty := true;
      } else if cur.lastDirtyWatch == Some(i) {
        return SweepResult(cur, dirty, fired, i + 1, true);
      }
      i := i + 1;
    }
    r := SweepResult(cur, dirty, fired, i, false);
  }
}

=== FILE: sentinel.dfy ===
/** The `uuid` sentinel as the scope actually holds it. A fresh watcher's
    `last` is the scope's own `uuid` method, and every scope exposes that
    same function object as `scope.uuid`. So a watch expression can return
    the sentinel itself, although the method's documentation promises a
    marker that differs from anything a watch function might return. */
module Sentinel {
  import opened Values

  /** A JavaScript value as `$$areEqual` receives it: one of the modelled
      values, or the `uuid` function object. */
  datatype JsValue = Uuid | Plain(value: Value)

  /** `$$areEqual` with the sentinel in play: the `uuid` function is `===`
      to itself, and a structural comparison of one object with itself also
      succeeds; it equals no other value. */
  predicate AreEqualAsWritten(newValue: JsValue, oldValue: JsValue, deep: bool)
  {
    match (newValue, oldValue)
    case (Uuid, Uuid) => true
    case (Plain(x), Plain(y)) => AreEqual(x, y, deep)
    case _ => false
  }

  /** As written, a fresh watcher (whose `last` is `uuid`) counts as dirty
      on its first evaluation exactly when the value it returns is not equal
      to `uuid`. */
  predicate FreshDirtyAsWritten(newValue: JsValue, deep: bool)
  {
    !AreEqualAsWritten(newValue, Uuid, deep)
  }

  /** A watch expression such as `scope => scope.uuid` returns the
      sentinel itself, so its fresh watcher is found clean and its listener
      is not called by the first `$digest`. */
  lemma WatchingUuidSkipsFirstCall(deep: bool)
    ensures !FreshDirtyAsWritten(Uuid, deep)
  {
  }
}

=== FILE: values.dfy ===
/** JavaScript values as seen by a watch expression, and the equality policy
    `$$areEqual` that decides whether a watched value changed.

    Values are immutable. An array or object carries a reference id: `===`
    compares references by id alone, so a snapshot taken before an in-place
    mutation and the mutated object are still `===`, exactly as in the heap. */
module Values {

  datatype Value =
    | Undefined
    | Null
    | Bool(b: bool)
    | Num(n: int)
    | NaN
    | Str(s: string)
    | Arr(ref: nat, elems: seq<Value>)
    | Obj(ref: nat, fields: map<string, Value>)

  /** What `===` looks at: a primitive itself, a reference only by its id. */
  function Identity(v: Value): (r: Value)
    ensures r.Arr? <==> v.Arr?
    ensures r.Obj? <==> v.Obj?
    ensures !v.Arr? && !v.Obj? ==> r == v
    ensures v.Arr? ==> r.ref == v.ref
    ensures v.Obj? ==> r.ref == v.ref
  {
    match v
    case Arr(id, _) => Arr(id, [])
    case Obj(id, _) => Obj(id, map[])
    case _ => v
  }

  /** What a structural comparison looks at: the value with every reference id erased. */
  function Shape(v: Value): (r: Value)
  {
    match v
    case Arr(_, xs) => Arr(0, seq(|xs|, i requires 0 <= i < |xs| => Shape(xs[i])))
    case Obj(_, f) => Obj(0, map k | k in f :: Shape(f[k]))
    case _ => v
  }

  /** JavaScript `===` on the modelled values: primitives by value, references
      by identity, and NaN unequal to everything including itself. So `===`
      is "same identity", except that NaN is never `===` to anything. */
  function StrictEquals(a: Value, b: Value): (r: bool)
    ensures r <==> Identity(a) == Identity(b) && !a.NaN?
  {
    match (a, b)
    case (Undefined, Undefined) => true
    case (Null, Null) => true
    case (Bool(x), Bool(y)) => x == y
    case (Num(x), Num(y)) => x == y
    case (Str(x), Str(y)) => x == y
    case (Arr(p, _), Arr(q, _)) => p == q
    case (Obj(p, _), Obj(q, _)) => p == q
    case _ => false
  }

  /** Structural equality in the manner of a deep-equality library routine:
      same kind, same length or key set, and element-wise or field-wise deep
      equal; scalars by value, with NaN equal to NaN. Every value is deep
      equal to itself, and only to values of its own kind. */
  function DeepEqual(a: Value, b: Value): (r: bool)
    ensures a == b ==> r
    ensures r ==> a.Arr? == b.Arr? && a.Obj? == b.Obj? && a.NaN? == b.NaN?
    decreases a
  {
    match a
    case Arr(_, xs) =>
      b.Arr? && |xs| == |b.elems| &&
      forall i :: 0 <= i < |xs| ==> DeepEqual(xs[i], b.elems[i])
    case Obj(_, f) =>
      b.Obj? && f.Keys == b.fields.Keys &&
      forall k :: k in f ==> DeepEqual(f[k], b.fields[k])
    case _ => a == b
  }

  /** The recursive structural comparison agrees with comparing shapes. */
  lemma {:induction false} DeepEqualIffSameShape(a: Value, b: Value)
    ensures DeepEqual(a, b) <==> Shape(a) == Shape(b)
    decreases a
  {
    match a
    case Arr(_, xs) =>
      if b.Arr? {
        var ys := b.elems;
        forall i | 0 <= i < |xs| && i < |ys|
          ensures DeepEqual(xs[i], ys[i]) <==> Shape(xs[i]) == Shape(ys[i])
        {
          DeepEqualIffSameShape(xs[i], ys[i]);
        }
        if Shape(a) == Shape(b) {
          assert |xs| == |ys|;
          forall i | 0 <= i < |xs| ensures Shape(xs[i]) == Shape(ys[i]) {
            assert Shape(a).elems[i] == Shape(b).elems[i];
          }
        }
        if DeepEqual(a, b) {
          assert Shape(a).elems == Shape(b).elems;
        }
      }
    case Obj(_, f) =>
      if b.Obj? {
        var g := b.fields;
        forall k | k in f && k in g
          ensures DeepEqual(f[k], g[k]) <==> Shape(f[k]) == Shape(g[k])
        {
          DeepEqualIffSameShape(f[k], g[k]);
        }
        if Shape(a) == Shape(b) {
          assert f.Keys == Shape(a).fields.Keys == Shape(b).fields.Keys == g.Keys;
          forall k | k in f ensures Shape(f[k]) == Shape(g[k]) {
            assert Shape(a).fields[k] == Shape(b).fields[k];
          }
        }
        if DeepEqual(a, b) {
          assert Shape(a).fields == Shape(b).fields;
        }
      }
    case _ =>
  }

  /** The key a watcher's equality policy compares: the shape in deep mode,
      the identity otherwise. */
  function PolicyKey(v: Value, deep: bool): Value
  {
    if deep then Shape(v) else Identity(v)
  }

  /** `$$areEqual(newValue, oldValue, equality)`: structural equality when the
      watcher asked for it, otherwise `===` widened so that NaN equals NaN. */
  function AreEqual(newValue: Value, oldValue: Value, deep: bool): (r: bool)
    ensures !deep ==> (r <==> Identity(newValue) == Identity(oldValue))
  {
    if deep then DeepEqual(newValue, oldValue)
    else StrictEquals(newValue, oldValue) || (newValue.NaN? && oldValue.NaN?)
  }

  /** Both policies decide equality by comparing one key per value, so each is
      an equivalence: in particular a value, NaN included, always equals itself. */
  lemma AreEqualIffSameKey(a: Value, b: Value, deep: bool)
    ensures AreEqual(a, b, deep) <==> PolicyKey(a, deep) == PolicyKey(b, deep)
  {
    if deep {
      DeepEqualIffSameShape(a, b);
    }
  }

  lemma AreEqualReflexive(v: Value, deep: bool)
    ensures AreEqual(v, v, deep)
  {
    AreEqualIffSameKey(v, v, deep);
  }

  lemma AreEqualSymmetric(a: Value, b: Value, deep: bool)
    ensures AreEqual(a, b, deep) <==> AreEqual(b, a, deep)
  {
    AreEqualIffSameKey(a, b, deep);
    AreEqualIffSameKey(b, a, deep);
  }

  lemma AreEqualTransitive(a: Value, b: Value, c: Value, deep: bool)
    requires AreEqual(a, b, deep) && AreEqual(b, c, deep)
    ensures AreEqual(a, c, deep)
  {
    AreEqualIffSameKey(a, b, deep);
    AreEqualIffSameKey(b, c, deep);
    AreEqualIffSameKey(a, c, deep);
  }

  /** NaN is not `===` to itself, but `$$areEqual` counts it equal to itself
      under both policies, so a watcher returning NaN settles. */
  lemma NaNIsEqualOnlyUnderPolicy(deep: bool)
    ensures !StrictEquals(NaN, NaN)
    ensures AreEqual(NaN, NaN, deep)
  {
  }

  /** Without the deep flag, an in-place mutation of a watched array is not a
      change: the stored reference and the mutated one have the same id. */
  lemma ShallowIgnoresInPlaceMutation(id: nat, before: seq<Value>, after: seq<Value>)
    ensures AreEqual(Arr(id, after), Arr(id, before), false)
  {
  }

  /** With the deep flag, pushing onto a watched array is a change. */
  lemma DeepDetectsPush(id: nat, before: seq<Value>, x: Value)
    ensures !AreEqual(Arr(id, before + [x]), Arr(id, before), true)
    ensures AreEqual(Arr(id, before + [x]), Arr(id, before), false)
  {
  }
}
